=== FILE: README.md ===
# libre-shop PDF service — a verified model of its request-to-file policy

The service (`src/app.py`) takes an order, invoice or shipping request as JSON. It
writes a Markdown file with a YAML front-matter block, hands it to a
`make`/`pandoc` renderer, and returns the PDF under
`/app/data/output/{date}-{label}-{recipient}[-n].pdf`. This project models the
pure policy between the JSON request and that file, and proves what that policy
promises:

- **`normalize`** (module `Normalizer`): lower-casing followed by the chain of
  literal replacements (`ö→oe`, `ä→ae`, `ß→ss`, `ü→ue`, and removal of `,`, `.` and
  space). It is proved equal to an independent character-by-character fold. That
  equality gives the output alphabet, idempotence, distribution over concatenation
  and "Max Müller" → "maxmueller". That name is the recipient of the example request
  used throughout the model: an invoice for "Max Müller" with body "Hello"
  (`Handlers.ExampleRequest`).
- **Output naming** (module `Namer`): the base path `/app/data/output/{date}-{label}-{recipient}`
  and the collision probe `base.pdf`, `base-1.pdf`, `base-2.pdf`, …. The file system
  is a finite set of existing paths. The probe is proved to terminate on every such
  set, to stop at the first free name, and never to return an existing path. It is
  written twice: as the source's `while` loop, and as a recursive function. A proof
  shows both agree.
- **Template labels** (module `Templates`): only invoices, shipping notes and order
  confirmations have a label. The labels are distinct and dash-free.
- **Document layout** (module `Document`): the five `write` calls that produce
  `---`, the letterhead line, the YAML dump, `...` and the body. A front-matter
  reader is defined as a partner, and reading the layout back is proved to return
  the metadata and the body exactly.
- **`generate_pdf`** (module `Generate`): the order of its failure points is the
  label lookup, the temporary directory, `body`, and then the recipient (`to.name or
  to.address[0]`). After those comes the renderer call. A path comes back exactly
  when the renderer ran and exited with 0.
- **The three POST handlers** (module `Handlers`): how `generate_pdf`'s result and a
  handler exception become a response. The end-to-end scenarios use the example
  invoice request for "Max Müller" with body "Hello". They cover its first and its
  repeated submission on one day, the same request without `body`, and any request
  whose renderer fails.
- **`health_check`** (module `Health`): the reply always has the same three keys.
  `status` is `"error"` exactly when at least one probe failed.
- **Log filters** (module `LogFilters`): the three rewrites applied to werkzeug log
  messages. They are the lazy ` - \[.+?]` deletion, `werkzeug:` → `app:flask:`, and
  `I:` → `i:`.

Everything outside the process is a parameter of the model:

- the date stamp;
- the set of existing paths;
- whether a temporary directory could be created;
- `yaml.dump`, as a function `Json -> string`;
- the renderer, as a function from the call it receives to its exit status;
- the outcomes of the two health probes.

Python's indexing failures (`KeyError`, `TypeError`, `IndexError`, `AttributeError`)
become `None`/`Failure` values. Helper modules: `Wrappers` provides `Option`/`Result`.
`Json` provides decoded request values, with Python truthiness and indexing. `Text`
provides literal find-and-replace and decimal rendering.

Two behaviours of the code that a reader of the service's interface might not
expect; the model follows the code in both:

- The YAML block is the dump of the *whole* request, `body` included.
- The order-confirmation handler answers 400 with the exception text only when the
  handler's own code raises, for example when the request body cannot be decoded.
  A request that is missing `body` or `to` makes `generate_pdf` return `None`
  internally. The handler then answers 500 with "pdf generation failed".

## Model

| member | source | states |
|---|---|---|
| Normalizer.LowerChar | src/app.py:114 | one character of `str.lower()`, for the capitals the model knows: the result is never such a capital; a non-capital is kept, a capital is changed; a letter in `A`–`Z` lands in `a`–`z` |
| Normalizer.LowerCharInjective | src/app.py:114 | two distinct capitals never get the same lower-case form |
| Normalizer.Lower | src/app.py:114 | the model of `str.lower()` applies LowerChar at each position, so the result has the length of the input |
| Normalizer.UntouchedByRules | src/app.py:115-121 | the rules of the chain rewrite exactly `ö`, `ä`, `ß`, `ü`, comma, full stop and space; every other character is left alone by all of them |
| Normalizer.ReplaceChain | src/app.py:115-121 | the chained `.replace` calls, one rule after another in source order; whatever the rules, an empty name stays empty |
| Normalizer.ReplaceChainUntouched | src/app.py:115-121 | a text containing none of the rules' characters passes the whole chain unchanged |
| Normalizer.Normalize | src/app.py:111-122 | the normalised name contains no capital, no `ö`, `ä`, `ß`, `ü`, comma, full stop or space |
| Normalizer.ReplaceChainChar | src/app.py:115-121 | on a single lower-cased character the replacement chain gives exactly that character's fold; no later replacement touches an earlier one's output |
| Normalizer.NormalizeMatchesSpec | src/app.py:111-122 | lower-casing then the replacement chain equals the independent character-wise fold |
| Normalizer.NormalizeSpecIsNormal | src/app.py:111-122 | the fold only produces characters of the normal alphabet |
| Normalizer.NormalizeSpecFixesNormal | src/app.py:111-122 | a name already in the normal alphabet is left unchanged |
| Normalizer.NormalizeIdempotent | src/app.py:111-122 | normalising twice is the same as normalising once |
| Normalizer.NormalizeConcat | src/app.py:111-122 | normalising a concatenation is concatenating the normalised parts |
| Normalizer.NormalizeSpecConcat | src/app.py:111-122 | the reference fold distributes over concatenation |
| Normalizer.NormalizeKeepsSlash | src/app.py:111-122 | a `/` in the recipient survives normalisation, with each side normalised |
| Normalizer.NormalizeExample | src/app.py:111-122 | "Max Müller" becomes "maxmueller" |
| Text.ReplaceAll | src/app.py:115-121 | `str.replace` with a literal pattern: a replacement no longer than the pattern never lengthens the text, and one no shorter never shortens it |
| Text.ReplaceAllAbsent | src/app.py:115-121 | `str.replace` with a pattern that does not occur leaves the text unchanged |
| Text.ReplaceAllLeftmost | src/app.py:115-121 | `str.replace` copies everything before the leftmost occurrence, substitutes it, and resumes right after it |
| Text.ReplaceCharConcat | src/app.py:115-121 | replacing a single character distributes over concatenation |
| Text.ReplaceAllClears | src/app.py:26-37 | when the replacement can take no part in an occurrence, no occurrence of the pattern remains |
| Text.Decimal | src/app.py:156-158 | the counter in the f-string is a non-empty run of digits with no leading zero |
| Text.DecimalRoundTrip | src/app.py:156-158 | the decimal rendering of the counter reads back to the counter |
| Text.DecimalInjective | src/app.py:156-158 | different counters give different suffixes |
| Templates.TemplatePath | src/app.py:65-70 | the enum values: only `DETAILS` is empty, every other value lies in `/app/data/templates/` |
| Templates.TemplatePathInjective | src/app.py:65-70 | the five values are distinct, so no member is an alias of another |
| Templates.Label | src/app.py:72-76 | exactly invoice, shipping note and order confirmation have a label; a label is non-empty and dash-free; the other templates raise |
| Templates.LabelInjective | src/app.py:72-76 | different document kinds have different labels |
| Namer.BasePath | src/app.py:149 | `os.path.join` of `/`, `app`, `data`, `output` and `{date}-{label}-{recipient}` is `/app/data/output/` followed by that name, since the name starts with a digit of the date |
| Namer.JoinStep | src/app.py:139-149 | one step of `posixpath.join`: an absolute part replaces the path; a relative part is appended after the path with at most one `/` in between |
| Namer.PathJoin | src/app.py:149 | `os.path.join(first, *rest)`, the steps taken left to right: when the last part is absolute it is the whole result |
| Namer.PathJoinAbsolute | src/app.py:149 | an absolute part discards everything joined before it |
| Namer.OutputDirJoin | src/app.py:149 | `posixpath.join` below `/app/data/output` of a name not starting with `/` inserts exactly one `/` before it |
| Namer.BasePathInjective | src/app.py:149 | two requests share a base path only when date, label and normalised recipient all agree |
| Namer.Candidate | src/app.py:154-160 | each probed path extends the base and ends in `.pdf`; it is exactly `.pdf` longer than the base only for the unsuffixed `base.pdf` |
| Namer.CandidateInjective | src/app.py:153-160 | the probe never looks at the same path twice |
| Namer.SuffixedSize | src/app.py:156-157 | `base-1.pdf` … `base-n.pdf` are `n` distinct paths |
| Namer.ProbeBound | src/app.py:156-157 | the loop cannot pass more counters than there are existing paths, so it terminates |
| Namer.FreeSuffixUnique | src/app.py:153-160 | at most one suffix meets the probe's stopping rule |
| Namer.SearchFrom | src/app.py:155-157 | counting on from `counter` reaches a free `base-n.pdf`, every earlier one being taken |
| Namer.FreeSuffix | src/app.py:153-160 | the chosen suffix is 0 exactly when `base.pdf` is free; otherwise it is the first `n >= 1` with `base-n.pdf` free, all earlier ones taken |
| Namer.OutputPath | src/app.py:153-160 | the output path never exists yet and extends the base; it is `base.pdf` when that is free, otherwise the first free `base-n.pdf` with `n >= 1`, every `base-k.pdf` before it being taken |
| Namer.ProbeOutputPath | src/app.py:153-160 | the `while` loop terminates on every finite directory and returns the path the rule prescribes, which does not exist |
| Namer.RepeatedRequests | src/app.py:153-160 | the same request twice gives `base.pdf`, then `base-1.pdf` |
| Namer.SecondSuffix | src/app.py:154-158 | with `base.pdf` taken and `base-1.pdf` free, the probe stops at `base-1.pdf` |
| Document.Layout | src/app.py:141-146 | the file starts with `---` and the letterhead line, has the YAML dump followed immediately by `...`, and ends with the body verbatim |
| Document.LayoutRoundTrip | src/app.py:141-146 | a front-matter reader returns the letterhead line plus the dump as metadata and the body unchanged |
| Document.SplitPlainLines | src/app.py:143-145 | the YAML lines are read back as metadata up to the closing line |
| Document.LineEndFirst | src/app.py:141-146 | the reader's line splitter stops at the first line break, and finds none exactly when the text has none |
| Document.LetterheadIsPlain | src/app.py:143 | the letterhead line is a complete line that does not close the block |
| Json.Truthy | src/app.py:148 | the truthiness `or` tests: falsy exactly for `None`, `False`, zero, and the empty string, list and dict |
| Json.Text | src/app.py:114-146 | the "is a `str`" test behind `.lower()` and `write`: succeeds exactly on a string, and gives back the string it wraps |
| Json.Get | src/app.py:146-148 | `x[key]` yields a value exactly for a dict holding the key; every other case raises |
| Json.First | src/app.py:148 | `x[0]` yields a value exactly for a non-empty list or string |
| Generate.BodyText | src/app.py:146 | the body is written only when present and a string; a missing body raises |
| Generate.NameField | src/app.py:148 | `details["to"]["name"]` exists exactly when `to` is present and holds `name` |
| Generate.Recipient | src/app.py:148 | a missing `to` or `name` raises; a non-empty string name is the recipient; a falsy name falls back to `address[0]`; a truthy non-string name cannot be normalised |
| Generate.AddressLine | src/app.py:148 | `address[0]` gives a recipient exactly when it exists and is a string, and that recipient is the string found there; a missing or empty address raises |
| Generate.Plan | src/app.py:125-174 | the renderer call is set up exactly when the kind has a label, a temporary directory exists, and body and recipient are usable; its output is the probed free path for the normalised recipient, its document is the layout of the whole-request dump and the body, its template is the enum value, and its source file is `os.path.join(temp_dir, 'details.md')` |
| Generate.GeneratePdf | src/app.py:125-185 | the renderer runs exactly when the request passes every check, and it receives the call set up for it (document, template, output path); a path comes back exactly when it then exits with 0; that path did not exist before; a missing body or recipient never starts the renderer |
| Handlers.RouteTemplate | src/app.py:204-246 | each route asks for one of the three document kinds |
| Handlers.RouteTemplateInjective | src/app.py:204-246 | no two routes ask for the same kind, so each route keeps its own template |
| Handlers.FailureReply | src/app.py:209-253 | when `generate_pdf` gives no path, every route answers 500 and no file; the order confirmation answers in plain text, the other two with `{"status":"failed"}` |
| Handlers.Handle | src/app.py:196-256 | a file is sent exactly when `generate_pdf` returned a path, and it is that path; `None` gives 500 with `{"status":"failed"}`, or "pdf generation failed" for order confirmations; a handler exception gives 500, or 400 with its text for order confirmations |
| Handlers.RendererFailureIs500 | src/app.py:176-178 | a renderer that never exits with 0 always leads to status 500 |
| Handlers.InvalidRequestIs500 | src/app.py:146-148 | a request without usable body or recipient gets the route's failure reply and the renderer is never started |
| Handlers.ValidRequestGetsFile | src/app.py:148-208 | a valid request with a working renderer receives the first free file for its date, label and normalised recipient |
| Handlers.ExampleRecipient | src/app.py:146-148 | the example request's recipient is "Max Müller" and its body is "Hello" |
| Handlers.ExampleBase | src/app.py:148-149 | the example's base path is `/app/data/output/{date}-invoice-maxmueller` |
| Handlers.ExampleInvoiceFile | src/app.py:148-160 | the example invoice goes to the first free name on that base |
| Handlers.FirstInvoiceOfTheDay | src/app.py:149-160 | the first such invoice of a day is `{date}-invoice-maxmueller.pdf` |
| Handlers.SecondInvoiceOfTheDay | src/app.py:153-158 | repeating it while the first file exists gives `{date}-invoice-maxmueller-1.pdf` |
| Handlers.InvoiceWithoutBody | src/app.py:205-211 | the example without `body` gets 500 `{"status":"failed"}` and no renderer call |
| Health.AfterWrite | src/app.py:298-307 | records whether the write probe succeeded; a failure sets status to "error", a success leaves the status alone |
| Health.AfterVersion | src/app.py:310-324 | records whether pandoc answered with exit code 0; a nonzero code, a timeout or another exception sets "error"; an earlier "error" is never reset |
| Health.HealthCheck | src/app.py:294-327 | the reply has exactly the keys `status`, `output_dir_writable`, `pandoc_responding`; both flags reflect their own probe; status is "error" exactly when at least one probe failed, otherwise "ok" |
| Health.ExampleReplies | src/app.py:294-324 | the replies for a read-only directory, a pandoc timeout and a healthy container |
| LogFilters.ReplaceWerkzeug | src/app.py:24-30 | `werkzeug:` → `app:flask:`: the message never gets shorter and no `werkzeug:` is left |
| LogFilters.LowercaseI | src/app.py:32-38 | `I:` → `i:`: the message keeps its length and no `I:` is left |
| LogFilters.LowercaseIPointwise | src/app.py:32-38 | exactly the `I`s followed by a colon become `i`; every other character is kept |
| LogFilters.LowercaseIIdempotent | src/app.py:32-38 | no `I:` is left, so a second pass changes nothing |
| LogFilters.ReplaceWerkzeugIdempotent | src/app.py:24-30 | no `werkzeug:` is left, so a second pass changes nothing |
| LogFilters.Scan | src/app.py:18 | the lazy `.+?]` extension stops at the first `]` after at least one character, and fails at a line break or at the end |
| LogFilters.LazyClose | src/app.py:18 | where `.+?]` ends at the start of a text, and that no end exists when it fails |
| LogFilters.LazyCloseUnique | src/app.py:18 | the lazy match has at most one end |
| LogFilters.RemoveDate | src/app.py:16-22 | `re.sub(r' - \[.+?]', '', msg)` never lengthens the message, and a message not starting with ` - [` keeps its first character |
| LogFilters.RemoveDateAbsent | src/app.py:16-22 | a message without ` - [` is unchanged |
| LogFilters.RemoveDateAtStart | src/app.py:18-21 | a match at the start is deleted and the scan resumes after its `]` |
| LogFilters.RemoveDateKeepsPrefix | src/app.py:16-22 | a prefix in which no ` - [` starts is copied unchanged |
| LogFilters.RemoveDateLeftmost | src/app.py:16-22 | the leftmost ` - [x]`, with `x` the shortest run closed by `]`, is deleted; the text before it is kept |
| LogFilters.RemoveDateExample | src/app.py:17-21 | `192.168.0.102 - - [30/Jun/2024 01:14:03] "%s" %s %s` becomes `192.168.0.102 - "%s" %s %s` |
| LogFilters.FilterMessage | src/app.py:48-51 | the three filters in the order they are added to the `werkzeug` logger; no `I:` survives the chain |
| LogFilters.FilterMessageExample | src/app.py:16-51 | the example access-log line, run through all three filters, loses only its timestamp |

## Left out

- Flask routing and `request.json` decoding are absent. The decoded body, or the text of the exception decoding raised, is an input of `Handlers.Handle`.
- `send_file` is absent. A failure inside it would reach the handler's `except` and is not modelled.
- `jsonify` is absent, and so is the `/v1` info page.
- Prometheus metrics and `logging.basicConfig` are left out; they are global wiring with no checkable behaviour.
- Logging calls are left out.
- `delete_pdf`/`delete_all` are absent: they only start `make clean` processes.
- The `make`/`pandoc` process is an input function from the call to an exit status, or to "could not start". `result.stderr` is not modelled.
- `tempfile`, `open`/`write` and `os.remove` are modelled only through their outcomes: the temporary directory may be absent, and the health write probe may raise. Writing the body raises when it is not a string.
- `os.path.exists` is membership in a fixed set of paths. The check-then-create race between concurrent identical requests is left out: it needs concurrency, and the model is sequential.
- `time.strftime` is absent. The date is an input of eight digits.
- `yaml.dump` is an opaque function. `Document.LayoutRoundTrip` assumes its output consists of complete lines, none of which starts like `---` or `...`.
- `json.loads(json.dumps(x))` is taken to be the identity on decoded JSON.
- Normalizer.LowerChar: lower-cases only ASCII, the Latin-1 capitals U+00C0..U+00DE (except U+00D7) and U+1E9E. Every other case mapping is omitted, including the Latin Extended capitals (Ł, Š, Œ, Ÿ) and other scripts, because Unicode case tables are not part of the model.
- Normalizer.Lower: maps each character to exactly one character, so it keeps the length. Python's `str.lower()` has one-to-many mappings, such as U+0130 to `i` followed by U+0307, and the model drops them.
- Text.ReplaceAll: requires a non-empty pattern. Every pattern in the source is non-empty, and the empty-pattern behaviour of `str.replace` is never exercised.
- LogFilters.RemoveDateLeftmost: characterises a match only when no ` - [` occurs earlier. An earlier ` - [` that fails to close is also skipped by `RemoveDate`, but no lemma states that.
- Health: the reply's HTTP status is not modelled, because `jsonify` always answers 200.

=== FILE: document.dfy ===
/** The intermediate Markdown document `generate_pdf` writes for the renderer
    (src/app.py): a YAML front-matter block that opens with the letterhead
    reference, the YAML dump of the request, the closing `...` line, then the
    body text. Also a reader for that layout, the way a front-matter parser
    splits such a file, to show that the body and the metadata come back out
    exactly. */
module Document {
  import opened Wrappers

  const Open := "---\n"
  const LetterheadLine := "letterhead: /app/data/templates/RE.pdf\n"
  const Close := "...\n"

  /** The file as the five `write` calls leave it. */
  function Layout(yaml: string, body: string): (doc: string)
    ensures |doc| == |Open| + |LetterheadLine| + |yaml| + |Close| + |body|
    ensures Open + LetterheadLine <= doc
    ensures doc[|Open| + |LetterheadLine|..][..|yaml|] == yaml
    ensures doc[|Open| + |LetterheadLine| + |yaml|..][..|Close|] == Close
    ensures doc[|doc| - |body|..] == body
  {
    var doc := Open + LetterheadLine + yaml + Close + body;
    assert doc == (Open + LetterheadLine) + yaml + Close + body;
    doc
  }

  /** Offset of the first line break, if any (`LineEndFirst` shows it is
      the first). */
  function LineEnd(s: string): (r: Option<nat>)
    ensures r.Some? ==> r.value < |s| && s[r.value] == '\n'
    decreases |s|
  {
    if |s| == 0 then None
    else if s[0] == '\n' then Some(0)
    else match LineEnd(s[1..])
      case None => None
      case Some(i) => Some(i + 1)
  }

  /** No line break comes before the one `LineEnd` finds, and when it finds
      none the text has none. */
  lemma {:induction false} LineEndFirst(s: string)
    ensures LineEnd(s).Some? ==> forall k :: 0 <= k < LineEnd(s).value ==> s[k] != '\n'
    ensures LineEnd(s).None? ==> '\n' !in s
    decreases |s|
  {
    if |s| > 0 && s[0] != '\n' {
      LineEndFirst(s[1..]);
      assert forall k :: 1 <= k < |s| ==> s[k] == s[1..][k - 1];
    }
  }

  /** A line that ends a front-matter block. */
  predicate IsDelimiterLine(s: string) {
    Close <= s || Open <= s
  }

  /** Reads front-matter lines from `rest`, which starts at a line boundary,
      up to the first delimiter line; yields the metadata and the text after
      the delimiter line, or `None` when the block is never closed. */
  function SplitAtDelimiter(rest: string): Option<(string, string)>
    decreases |rest|
  {
    if IsDelimiterLine(rest) then Some(("", rest[4..]))
    else match LineEnd(rest)
      case None => None
      case Some(i) => Prepend(rest[..i + 1], SplitAtDelimiter(rest[i + 1..]))
  }

  /** A metadata line in front of what the rest of the block yields. */
  function Prepend(line: string, parts: Option<(string, string)>): Option<(string, string)>
  {
    match parts
    case None => None
    case Some((meta, text)) => Some((line + meta, text))
  }

  /** A front-matter reader: the document must open with `---`; the metadata
      is everything up to the next delimiter line, the body everything after. */
  function ReadFrontMatter(doc: string): Option<(string, string)>
  {
    if Open <= doc then SplitAtDelimiter(doc[|Open|..]) else None
  }

  /** Complete lines, none of them a delimiter line: what a YAML dump of a
      mapping looks like. */
  predicate PlainLines(s: string)
    decreases |s|
  {
    |s| == 0 ||
    (!IsDelimiterLine(s) && LineEnd(s).Some? && PlainLines(s[LineEnd(s).value + 1..]))
  }

  /** Plain lines are taken over into the metadata as they are, in front of
      whatever the reader makes of the text that follows them. */
  lemma {:induction false} SplitPlainLines(lines: string, after: string)
    requires PlainLines(lines)
    ensures SplitAtDelimiter(lines + after) == Prepend(lines, SplitAtDelimiter(after))
    decreases |lines|
  {
    if |lines| == 0 {
      SplitNoLines(lines, after);
    } else {
      PlainLinesTail(lines);
      SplitPlainLines(lines[LineEnd(lines).value + 1..], after);
      SplitPlainStep(lines, after);
    }
  }

  /** With no lines in front the reader sees only what follows. */
  lemma SplitNoLines(lines: string, after: string)
    requires |lines| == 0
    ensures SplitAtDelimiter(lines + after) == Prepend(lines, SplitAtDelimiter(after))
  {
    assert lines + after == after;
    PrependEmpty(SplitAtDelimiter(after));
  }

  /** Plain lines start with a complete line that is not a delimiter, and
      the lines after it are plain. */
  lemma PlainLinesTail(lines: string)
    requires PlainLines(lines) && |lines| > 0
    ensures LineEnd(lines).Some? && !IsDelimiterLine(lines)
    ensures PlainLines(lines[LineEnd(lines).value + 1..])
  {
  }

  /** The step of `SplitPlainLines`: once the lines after the first are
      known to be taken over as they are, so are all of them. */
  lemma {:induction false} SplitPlainStep(lines: string, after: string)
    requires LineEnd(lines).Some? && !IsDelimiterLine(lines)
    requires SplitAtDelimiter(lines[LineEnd(lines).value + 1..] + after) ==
      Prepend(lines[LineEnd(lines).value + 1..], SplitAtDelimiter(after))
    ensures SplitAtDelimiter(lines + after) == Prepend(lines, SplitAtDelimiter(after))
  {
    var i := LineEnd(lines).value;
    SplitFirstLine(lines, after);
    PrependJoin(lines, i + 1, SplitAtDelimiter(after));
  }

  /** Prepending a text in two pieces is prepending it whole. */
  lemma PrependJoin(lines: string, k: nat, parts: Option<(string, string)>)
    requires k <= |lines|
    ensures Prepend(lines[..k], Prepend(lines[k..], parts)) == Prepend(lines, parts)
  {
    PrependTwice(lines[..k], lines[k..], parts);
    assert lines[..k] + lines[k..] == lines;
  }

  lemma PrependEmpty(parts: Option<(string, string)>)
    ensures Prepend("", parts) == parts
  {
    if parts.Some? {
      assert "" + parts.value.0 == parts.value.0;
    }
  }

  lemma PrependTwice(a: string, b: string, parts: Option<(string, string)>)
    ensures Prepend(a, Prepend(b, parts)) == Prepend(a + b, parts)
  {
    if parts.Some? {
      assert a + (b + parts.value.0) == (a + b) + parts.value.0;
    }
  }

  /** The reader consumes a first line that is not a delimiter and goes on
      with the rest. */
  lemma SplitFirstLine(lines: string, after: string)
    requires LineEnd(lines).Some? && !IsDelimiterLine(lines)
    ensures SplitAtDelimiter(lines + after) ==
      Prepend(lines[..LineEnd(lines).value + 1], SplitAtDelimiter(lines[LineEnd(lines).value + 1..] + after))
  {
    DelimiterPrefix(lines, after);
    LineEndPrefix(lines, after);
    SplitStep(lines + after);
    SliceConcat(lines, after, LineEnd(lines).value + 1);
  }

  /** Slicing a concatenation inside its first part. */
  lemma SliceConcat(u: string, v: string, k: nat)
    requires k <= |u|
    ensures (u + v)[..k] == u[..k] && (u + v)[k..] == u[k..] + v
  {
  }

  /** One step of the reader on a line that does not close the block. */
  lemma SplitStep(rest: string)
    requires !IsDelimiterLine(rest) && LineEnd(rest).Some?
    ensures SplitAtDelimiter(rest) ==
      Prepend(rest[..LineEnd(rest).value + 1], SplitAtDelimiter(rest[LineEnd(rest).value + 1..]))
  {
  }

  /** Whether a text that contains a line break starts with a delimiter line
      does not depend on what follows it. */
  lemma DelimiterPrefix(s: string, t: string)
    requires LineEnd(s).Some?
    ensures IsDelimiterLine(s + t) == IsDelimiterLine(s)
  {
    var i := LineEnd(s).value;
    if i >= 3 {
      assert (s + t)[..4] == s[..4];
    } else {
      assert (s + t)[i] == '\n';
      assert !(Close <= s + t) && !(Open <= s + t);
      assert !(Close <= s) && !(Open <= s);
    }
  }

  /** The first line break of a text that has one is unaffected by what
      follows the text. */
  lemma {:induction false} LineEndPrefix(s: string, t: string)
    requires LineEnd(s).Some?
    ensures LineEnd(s + t) == LineEnd(s)
    decreases |s|
  {
    if s[0] != '\n' {
      assert (s + t)[1..] == s[1..] + t;
      LineEndPrefix(s[1..], t);
    }
  }

  /** The layout round-trips through a front-matter reader: when the YAML
      dump consists of plain lines, the reader returns exactly the letterhead
      line plus the dump as metadata and the body, verbatim, as the text. */
  lemma LayoutRoundTrip(yaml: string, body: string)
    requires PlainLines(yaml)
    ensures ReadFrontMatter(Layout(yaml, body)) == Some((LetterheadLine + yaml, body))
  {
    var meta := LetterheadLine + yaml;
    var after := Close + body;
    assert PlainLines(meta) by {
      LetterheadIsPlain();
      PlainLinesConcat(LetterheadLine, yaml);
    }
    calc {
      ReadFrontMatter(Layout(yaml, body));
      { LayoutParts(yaml, body); }
      ReadFrontMatter(Open + (meta + after));
      { ReadAfterOpen(meta + after); }
      SplitAtDelimiter(meta + after);
      { SplitPlainLines(meta, after); }
      Prepend(meta, SplitAtDelimiter(after));
      { CloseLine(body); }
      Prepend(meta, Some(("", body)));
      { assert meta + "" == meta; }
      Some((meta, body));
    }
  }

  /** The layout is the opening line, the metadata, then the closing line
      with the body. */
  lemma LayoutParts(yaml: string, body: string)
    ensures Layout(yaml, body) == Open + ((LetterheadLine + yaml) + (Close + body))
  {
  }

  lemma ReadAfterOpen(rest: string)
    ensures ReadFrontMatter(Open + rest) == SplitAtDelimiter(rest)
  {
    assert (Open + rest)[|Open|..] == rest;
  }

  lemma CloseLine(body: string)
    ensures SplitAtDelimiter(Close + body) == Some(("", body))
  {
    assert IsDelimiterLine(Close + body);
    assert (Close + body)[4..] == body;
  }

  lemma LetterheadIsPlain()
    ensures PlainLines(LetterheadLine)
  {
    var text := "letterhead: /app/data/templates/RE.pdf";
    assert LetterheadLine == text + "\n";
    assert text[0] == 'l';
    OneLine(text);
  }

  /** A single line that does not start like a delimiter is plain. */
  lemma OneLine(text: string)
    requires forall i :: 0 <= i < |text| ==> text[i] != '\n'
    requires |text| > 0 && text[0] != '.' && text[0] != '-'
    ensures PlainLines(text + "\n")
  {
    var line := text + "\n";
    LineEndAfter(text, "");
    assert line + "" == line;
    assert line[|text| + 1..] == "";
    assert line[0] == text[0];
  }

  /** A text without line breaks followed by one: its first line break is
      the appended one. */
  lemma {:induction false} LineEndAfter(text: string, t: string)
    requires forall i :: 0 <= i < |text| ==> text[i] != '\n'
    ensures LineEnd(text + "\n" + t) == Some(|text|)
    decreases |text|
  {
    if |text| > 0 {
      assert (text + "\n" + t)[1..] == text[1..] + "\n" + t;
      LineEndAfter(text[1..], t);
    }
  }

  /** Plain lines followed by plain lines are plain lines. */
  lemma {:induction false} PlainLinesConcat(a: string, b: string)
    requires PlainLines(a) && PlainLines(b)
    ensures PlainLines(a + b)
    decreases |a|
  {
    if |a| == 0 {
      assert a + b == b;
    } else {
      var i := LineEnd(a).value;
      DelimiterPrefix(a, b);
      LineEndPrefix(a, b);
      assert (a + b)[i + 1..] == a[i + 1..] + b;
      PlainLinesConcat(a[i + 1..], b);
    }
  }
}

=== FILE: generate.dfy ===
/** `generate_pdf` of src/app.py: from a decoded request and a template to
    the path of a rendered PDF, or `None`. Everything the function touches
    outside itself is an input here: the date stamp, the paths that exist in
    the output directory, the temporary directory, `yaml.dump`, and the exit
    status the renderer process reports for the call it is given. */
module Generate {
  import opened Wrappers
  import opened Json
  import opened Templates
  import Normalizer
  import Namer
  import Document

  /** The `make -e -B src=... template=... output=...` invocation: the source
      file and the text written into it, the template resource, the output
      path. */
  datatype RenderCall = RenderCall(source: string, document: string, template: string, output: string)

  /** What `subprocess.run` reports: the exit status, or that the process
      could not be started (the call raises). */
  datatype RenderOutcome = Exited(code: int) | NotStarted

  /** The surroundings of one call of `generate_pdf`. `scratch` is the
      temporary directory (`None` when it cannot be created), `dump` stands
      for `yaml.dump`, `render` for the renderer process. */
  datatype Env = Env(
    date: string,
    existing: set<string>,
    scratch: Option<string>,
    dump: Json -> string,
    render: RenderCall -> RenderOutcome)

  /** Why a call returned `None`, in the order the source can fail. */
  datatype GenerateError =
    | NoLabel          // `template_to_label[template]` raised `KeyError`
    | NoScratch        // the temporary directory or file could not be made
    | BodyMissing      // `details_dict["body"]` raised
    | BodyNotText      // writing a non-string body raised `TypeError`
    | RecipientMissing // `["to"]`, `["name"]`, `["address"]` or `[0]` raised
    | RecipientNotText // `normalize` of a non-string raised `AttributeError`
    | RendererNotStarted
    | RendererFailed(code: int)

  /** `details_dict["body"]`, written with `yaml_file.write`. */
  function BodyText(request: Json): (r: Result<string, GenerateError>)
    ensures r.Success? <==> Get(request, "body").Some? && Get(request, "body").value.JString?
    ensures r.Success? ==> r.value == request.fields["body"].s
    ensures Get(request, "body").None? ==> r == Failure(BodyMissing)
  {
    match Get(request, "body")
    case None => Failure(BodyMissing)
    case Some(body) =>
      match Text(body)
      case None => Failure(BodyNotText)
      case Some(s) => Success(s)
  }

  /** `details_dict["to"]["name"]`, or `None` where that raises. */
  function NameField(request: Json): (r: Option<Json>)
    ensures r.Some? <==> Get(request, "to").Some? && Get(request.fields["to"], "name").Some?
  {
    match Get(request, "to")
    case None => None
    case Some(to) => Get(to, "name")
  }

  /** `to["name"] or to["address"][0]`, as a value `normalize` accepts. */
  function Recipient(request: Json): (r: Result<string, GenerateError>)
    // A missing "to" or a missing "name" raises, whatever the address says.
    ensures NameField(request).None? ==> r == Failure(RecipientMissing)
    // A non-empty string name is the recipient.
    ensures (NameField(request).Some? && NameField(request).value.JString? &&
             |NameField(request).value.s| > 0) ==>
      r == Success(NameField(request).value.s)
    // A present but falsy name falls back to the first address entry.
    ensures (NameField(request).Some? && !Truthy(NameField(request).value)) ==>
      r == AddressLine(request.fields["to"])
    // A truthy name that is not a string cannot be normalised.
    ensures (NameField(request).Some? && Truthy(NameField(request).value) &&
             !NameField(request).value.JString?) ==>
      r == Failure(RecipientNotText)
  {
    match Get(request, "to")
    case None => Failure(RecipientMissing)
    case Some(to) =>
      match Get(to, "name")
      case None => Failure(RecipientMissing)
      case Some(name) =>
        if Truthy(name) then
          (match Text(name)
           case None => Failure(RecipientNotText)
           case Some(s) => Success(s))
        else
          AddressLine(to)
  }

  /** `to["address"][0]`, which must be a string. */
  function AddressLine(to: Json): (r: Result<string, GenerateError>)
    ensures r.Success? <==>
      Get(to, "address").Some? && First(to.fields["address"]).Some? &&
      First(to.fields["address"]).value.JString?
    // The recipient is the string found at `address[0]`.
    ensures r.Success? ==> r.value == First(to.fields["address"]).value.s
    // No address, or an empty one, raises `KeyError`/`IndexError`/`TypeError`.
    ensures (Get(to, "address").None? || First(to.fields["address"]).None?) ==>
      r == Failure(RecipientMissing)
  {
    match Get(to, "address")
    case None => Failure(RecipientMissing)
    case Some(address) =>
      match First(address)
      case None => Failure(RecipientMissing)
      case Some(line) =>
        match Text(line)
        case None => Failure(RecipientNotText)
        case Some(s) => Success(s)
  }

  /** The renderer call `generate_pdf` sets up, or the reason it raised
      before getting there. */
  function Plan(t: Template, request: Json, env: Env): (r: Result<RenderCall, GenerateError>)
    requires Namer.IsDateStamp(env.date)
    ensures r.Success? <==>
      IsDocumentKind(t) && env.scratch.Some? && BodyText(request).Success? && Recipient(request).Success?
    ensures !IsDocumentKind(t) ==> r == Failure(NoLabel)
    ensures IsDocumentKind(t) && env.scratch.Some? && Get(request, "body").None? ==> r == Failure(BodyMissing)
    ensures r.Success? ==> r.value.output !in env.existing
    ensures r.Success? ==> Namer.OutputDir <= r.value.output
    ensures r.Success? ==> r.value.template == TemplatePath(t)
    ensures r.Success? ==> r.value.source == Namer.JoinStep(env.scratch.value, "details.md")
    // The YAML block is the dump of the whole request, body included.
    ensures r.Success? ==>
      r.value.document == Document.Layout(env.dump(request), BodyText(request).value)
    ensures r.Success? ==>
      var base := Namer.BasePath(env.date, Label(t).value, Normalizer.Normalize(Recipient(request).value));
      r.value.output == Namer.OutputPath(base, env.existing)
  {
    match Label(t)
    case None => Failure(NoLabel)
    case Some(kindLabel) =>
      match env.scratch
      case None => Failure(NoScratch)
      case Some(dir) =>
        var yaml := env.dump(request);
        match BodyText(request)
        case Failure(e) => Failure(e)
        case Success(body) =>
          var document := Document.Layout(yaml, body);
          match Recipient(request)
          case Failure(e) => Failure(e)
          case Success(name) =>
            var base := Namer.BasePath(env.date, kindLabel, Normalizer.Normalize(name));
            var output := Namer.OutputPath(base, env.existing);
            // `os.path.join(temp_dir, 'details.md')`
            Success(RenderCall(Namer.JoinStep(dir, "details.md"), document, TemplatePath(t), output))
  }

  /** One run of `generate_pdf`: the renderer call made, if any, and the
      outcome. `outcome.ToOption()` is the function's return value. */
  datatype Generation = Generation(invoked: Option<RenderCall>, outcome: Result<string, GenerateError>)

  function GeneratePdf(t: Template, request: Json, env: Env): (g: Generation)
    requires Namer.IsDateStamp(env.date)
    // The renderer runs exactly when the request passed every check.
    ensures g.invoked.Some? <==> Plan(t, request, env).Success?
    // ... and it receives the call `Plan` set up.
    ensures g.invoked.Some? ==> g.invoked.value == Plan(t, request, env).value
    // A path comes back exactly when the renderer ran and exited with 0.
    ensures g.outcome.Success? <==> g.invoked.Some? && env.render(g.invoked.value) == Exited(0)
    ensures g.outcome.Success? ==> g.outcome.value == g.invoked.value.output
    ensures g.outcome.Success? ==> g.outcome.value !in env.existing
    ensures g.invoked.Some? && env.render(g.invoked.value).Exited? && env.render(g.invoked.value).code != 0 ==>
      g.outcome == Failure(RendererFailed(env.render(g.invoked.value).code))
    // Missing body or recipient: `None`, and the renderer is never started.
    ensures BodyText(request).Failure? || Recipient(request).Failure? ==>
      g.invoked.None? && g.outcome.Failure?
  {
    match Plan(t, request, env)
    case Failure(e) => Generation(None, Failure(e))
    case Success(call) =>
      match env.render(call)
      case NotStarted => Generation(Some(call), Failure(RendererNotStarted))
      case Exited(code) =>
        if code != 0 then Generation(Some(call), Failure(RendererFailed(code)))
        else Generation(Some(call), Success(call.output))
  }
}

=== FILE: handlers.dfy ===
/** The three POST handlers of src/app.py (`/v1/invoice`, `/v1/shipping`,
    `/v1/order-confirmation`): each decodes the request, calls
    `generate_pdf` with its fixed template and turns the result into a
    response. */
module Handlers {
  import opened Wrappers
  import opened Json
  import opened Templates
  import opened Generate
  import Namer
  import Normalizer

  datatype Route = InvoiceRoute | ShippingRoute | OrderConfirmationRoute

  function RouteTemplate(route: Route): (t: Template)
    ensures IsDocumentKind(t)
  {
    match route
    case InvoiceRoute => Invoice
    case ShippingRoute => Shipping
    case OrderConfirmationRoute => OrderConfirmation
  }

  /** Each route keeps its own document kind: no two routes share one. */
  lemma RouteTemplateInjective(a: Route, b: Route)
    requires RouteTemplate(a) == RouteTemplate(b)
    ensures a == b
  {
  }

  /** A response: the PDF file (`send_file`, status 200), a JSON object
      (`jsonify`) or plain text, each with its status. */
  datatype Response =
    | PdfFile(path: string)
    | JsonReply(body: map<string, Json>, code: int)
    | TextReply(text: string, code: int)

  function Status(resp: Response): int
  {
    match resp
    case PdfFile(_) => 200
    case JsonReply(_, code) => code
    case TextReply(_, code) => code
  }

  const Failed: map<string, Json> := map["status" := JString("failed")]

  /** The reply of a route when `generate_pdf` gave no path: status 500 and
      never a file; plain text for the order confirmation, the JSON status
      object for the other two. */
  function FailureReply(route: Route): (resp: Response)
    ensures Status(resp) == 500 && !resp.PdfFile?
    ensures resp.TextReply? <==> route == OrderConfirmationRoute
    ensures resp.JsonReply? ==> "status" in resp.body && resp.body["status"] == JString("failed")
  {
    if route == OrderConfirmationRoute then TextReply("pdf generation failed", 500)
    else JsonReply(Failed, 500)
  }

  /** One POST handler. `parsed` is what `request.json` gives: the decoded
      body, or the text of the exception it raised. */
  function Handle(route: Route, parsed: Result<Json, string>, env: Env): (resp: Response)
    requires Namer.IsDateStamp(env.date)
    // A file is sent exactly when `generate_pdf` returned a path, and it is
    // that path, a file that did not exist before the request.
    ensures resp.PdfFile? <==>
      parsed.Success? && GeneratePdf(RouteTemplate(route), parsed.value, env).outcome.Success?
    ensures resp.PdfFile? ==>
      resp.path == GeneratePdf(RouteTemplate(route), parsed.value, env).outcome.value &&
      resp.path !in env.existing
    // `None` from `generate_pdf`: status 500, never a file.
    ensures parsed.Success? && !resp.PdfFile? ==> resp == FailureReply(route) && Status(resp) == 500
    // An exception in the handler itself: 500 with the generic status, except
    // that the order confirmation answers 400 with the exception's text.
    ensures parsed.Failure? && route != OrderConfirmationRoute ==> resp == JsonReply(Failed, 500)
    ensures parsed.Failure? && route == OrderConfirmationRoute ==> resp == TextReply(parsed.error, 400)
  {
    match parsed
    case Failure(message) =>
      if route == OrderConfirmationRoute then TextReply(message, 400) else JsonReply(Failed, 500)
    case Success(request) =>
      var pdf := GeneratePdf(RouteTemplate(route), request, env).outcome.ToOption();
      // `if pdf_content:` tests the truthiness of the returned path.
      if pdf.Some? && |pdf.value| > 0 then PdfFile(pdf.value) else FailureReply(route)
  }

  /** A renderer that exits with a nonzero status never yields a 200: the
      handler answers 500. */
  lemma RendererFailureIs500(route: Route, request: Json, env: Env)
    requires Namer.IsDateStamp(env.date)
    requires forall c :: env.render(c) != Exited(0)
    ensures Status(Handle(route, Success(request), env)) == 500
  {
  }

  /** A request without `body` or without a usable recipient gets a 500 and
      the renderer is never started. */
  lemma InvalidRequestIs500(route: Route, request: Json, env: Env)
    requires Namer.IsDateStamp(env.date)
    requires BodyText(request).Failure? || Recipient(request).Failure?
    ensures Handle(route, Success(request), env) == FailureReply(route)
    ensures GeneratePdf(RouteTemplate(route), request, env).invoked.None?
  {
  }

  /** A valid request with a working renderer is answered with the file
      whose name is built from the date, the route's label and the normalised
      recipient, with the first free suffix. */
  lemma ValidRequestGetsFile(route: Route, request: Json, env: Env, name: string)
    requires Namer.IsDateStamp(env.date) && env.scratch.Some?
    requires forall c :: env.render(c) == Exited(0)
    requires BodyText(request).Success? && Recipient(request) == Success(name)
    ensures Handle(route, Success(request), env) ==
      PdfFile(Namer.OutputPath(
        Namer.BasePath(env.date, Label(RouteTemplate(route)).value, Normalizer.Normalize(name)),
        env.existing))
  {
    var t := RouteTemplate(route);
    var call := Plan(t, request, env).value;
    assert GeneratePdf(t, request, env).outcome == Success(call.output);
    assert Namer.OutputDir <= call.output;
  }

  /** The example request: an invoice for "Max Müller". */
  function ExampleRequest(withBody: bool): Json
  {
    var to := JObject(map["name" := JString("Max Müller"), "address" := JArray([JString("Street 1")])]);
    if withBody then JObject(map["to" := to, "body" := JString("Hello")])
    else JObject(map["to" := to])
  }

  /** The example request names its recipient "Max Müller". */
  lemma ExampleRecipient()
    ensures Recipient(ExampleRequest(true)) == Success("Max Müller")
    ensures BodyText(ExampleRequest(true)) == Success("Hello")
  {
    var to := ExampleRequest(true).fields["to"];
    assert Get(ExampleRequest(true), "to") == Some(to);
    assert Get(to, "name") == Some(JString("Max Müller"));
  }

  /** The base name the example request gets on a given day. */
  lemma ExampleBase(date: string, name: string)
    requires Namer.IsDateStamp(date)
    requires name == "Max Müller"
    ensures Namer.BasePath(date, "invoice", Normalizer.Normalize(name)) ==
      Namer.OutputDir + date + "-invoice-maxmueller"
  {
    Normalizer.NormalizeExample(name);
    InvoiceBase(date, Normalizer.Normalize(name));
  }

  lemma InvoiceBase(date: string, recipient: string)
    requires Namer.IsDateStamp(date)
    requires recipient == "maxmueller"
    ensures Namer.BasePath(date, "invoice", recipient) ==
      Namer.OutputDir + date + "-invoice-maxmueller"
  {
    var tail := "-" + "invoice" + "-" + recipient;
    assert tail == "-invoice-maxmueller";
    assert Namer.OutputDir + date + "-" + "invoice" + "-" + recipient == Namer.OutputDir + date + tail;
  }

  /** The example invoice is written to the first free name derived from
      `{date}-invoice-maxmueller`. */
  lemma ExampleInvoiceFile(env: Env)
    requires Namer.IsDateStamp(env.date) && env.scratch.Some?
    requires forall c :: env.render(c) == Exited(0)
    ensures Handle(InvoiceRoute, Success(ExampleRequest(true)), env) ==
      PdfFile(Namer.OutputPath(Namer.OutputDir + env.date + "-invoice-maxmueller", env.existing))
  {
    ExampleRecipient();
    ExampleBase(env.date, "Max Müller");
    assert Label(RouteTemplate(InvoiceRoute)).value == "invoice";
    ValidRequestGetsFile(InvoiceRoute, ExampleRequest(true), env, "Max Müller");
  }

  /** First invoice of the day for "Max Müller": the file is
      `{date}-invoice-maxmueller.pdf`. */
  lemma FirstInvoiceOfTheDay(env: Env)
    requires Namer.IsDateStamp(env.date) && env.scratch.Some?
    requires forall c :: env.render(c) == Exited(0)
    requires Namer.OutputDir + env.date + "-invoice-maxmueller.pdf" !in env.existing
    ensures Handle(InvoiceRoute, Success(ExampleRequest(true)), env) ==
      PdfFile(Namer.OutputDir + env.date + "-invoice-maxmueller.pdf")
  {
    var base := Namer.OutputDir + env.date + "-invoice-maxmueller";
    assert base + ".pdf" == Namer.OutputDir + env.date + "-invoice-maxmueller.pdf";
    ExampleInvoiceFile(env);
  }

  /** The same request again, with the first file still there: the file is
      `{date}-invoice-maxmueller-1.pdf`, and the first one is not touched. */
  lemma SecondInvoiceOfTheDay(env: Env)
    requires Namer.IsDateStamp(env.date) && env.scratch.Some?
    requires forall c :: env.render(c) == Exited(0)
    requires Namer.OutputDir + env.date + "-invoice-maxmueller.pdf" in env.existing
    requires Namer.OutputDir + env.date + "-invoice-maxmueller-1.pdf" !in env.existing
    ensures Handle(InvoiceRoute, Success(ExampleRequest(true)), env) ==
      PdfFile(Namer.OutputDir + env.date + "-invoice-maxmueller-1.pdf")
  {
    var base := Namer.OutputDir + env.date + "-invoice-maxmueller";
    assert base + ".pdf" == Namer.OutputDir + env.date + "-invoice-maxmueller.pdf";
    assert base + "-1.pdf" == Namer.OutputDir + env.date + "-invoice-maxmueller-1.pdf";
    Namer.SecondSuffix(base, env.existing);
    ExampleInvoiceFile(env);
  }

  /** The example request without `body`: a 500 and no renderer call. */
  lemma InvoiceWithoutBody(env: Env)
    requires Namer.IsDateStamp(env.date)
    ensures Handle(InvoiceRoute, Success(ExampleRequest(false)), env) == JsonReply(Failed, 500)
    ensures GeneratePdf(Invoice, ExampleRequest(false), env).invoked.None?
  {
    assert BodyText(ExampleRequest(false)).Failure?;
  }
}

=== FILE: health.dfy ===
/** `health_check` of src/app.py: two probes, each recorded in the reply, the
    overall status downgraded to "error" by whichever fails. The probes
    themselves (writing and removing a file, running `pandoc --version` with a
    five-second timeout) are inputs: only their outcomes are modelled. */
module Health {
  import opened Json

  /** Writing and removing `test_write.txt`: done, or one of the steps raised. */
  datatype WriteProbe = Written | WriteRaised

  /** `subprocess.run(['pandoc', '--version'], timeout=5)`: the exit status,
      `TimeoutExpired`, or any other exception. */
  datatype VersionProbe = VersionExited(code: int) | VersionTimedOut | VersionRaised

  const Keys := {"status", "output_dir_writable", "pandoc_responding"}

  predicate WriteOk(w: WriteProbe) { w == Written }

  predicate VersionOk(v: VersionProbe) { v == VersionExited(0) }

  /** The first `try` block: records the write probe. */
  function AfterWrite(h: map<string, Json>, w: WriteProbe): (r: map<string, Json>)
    requires "status" in h
    ensures r.Keys == h.Keys + {"output_dir_writable"}
    ensures r["output_dir_writable"] == JBool(WriteOk(w))
    // A failure downgrades the status; a success leaves it as it was.
    ensures r["status"] == (if WriteOk(w) then h["status"] else JString("error"))
    ensures forall k :: k in h && k != "status" && k != "output_dir_writable" ==> r[k] == h[k]
  {
    match w
    case Written => h["output_dir_writable" := JBool(true)]
    case WriteRaised => h["output_dir_writable" := JBool(false)]["status" := JString("error")]
  }

  /** The second `try` block and its two handlers: records the version probe. */
  function AfterVersion(h: map<string, Json>, v: VersionProbe): (r: map<string, Json>)
    requires "status" in h
    ensures r.Keys == h.Keys + {"pandoc_responding"}
    ensures r["pandoc_responding"] == JBool(VersionOk(v))
    // An "error" set by the first probe survives whatever this probe reports;
    // an "ok" is kept only by a succeeding probe.
    ensures r["status"] == (if VersionOk(v) then h["status"] else JString("error"))
    ensures forall k :: k in h && k != "status" && k != "pandoc_responding" ==> r[k] == h[k]
  {
    match v
    case VersionExited(code) =>
      if code == 0 then h["pandoc_responding" := JBool(true)]
      else h["pandoc_responding" := JBool(false)]["status" := JString("error")]
    case VersionTimedOut => h["pandoc_responding" := JBool(false)]["status" := JString("error")]
    case VersionRaised => h["pandoc_responding" := JBool(false)]["status" := JString("error")]
  }

  /** The reply, built the way the handler builds it: start from
      `{'status': 'ok'}`, then let each probe record itself. */
  function HealthCheck(w: WriteProbe, v: VersionProbe): (h: map<string, Json>)
    // Every key is always present, and there are no others.
    ensures h.Keys == Keys
    ensures h["output_dir_writable"] == JBool(WriteOk(w))
    ensures h["pandoc_responding"] == JBool(VersionOk(v))
    // "error" exactly when at least one probe failed, "ok" otherwise.
    ensures h["status"] == JString("error") <==> !WriteOk(w) || !VersionOk(v)
    ensures h["status"] == JString("ok") <==> WriteOk(w) && VersionOk(v)
  {
    AfterVersion(AfterWrite(map["status" := JString("ok")], w), v)
  }

  /** Three example replies: a container with a read-only output directory
      and a working pandoc, one where pandoc times out, and a healthy one. */
  lemma ExampleReplies()
    ensures HealthCheck(WriteRaised, VersionExited(0)) ==
      map["status" := JString("error"), "output_dir_writable" := JBool(false),
          "pandoc_responding" := JBool(true)]
    ensures HealthCheck(Written, VersionTimedOut) ==
      map["status" := JString("error"), "output_dir_writable" := JBool(true),
          "pandoc_responding" := JBool(false)]
    ensures HealthCheck(Written, VersionExited(0)) ==
      map["status" := JString("ok"), "output_dir_writable" := JBool(true),
          "pandoc_responding" := JBool(true)]
  {
  }
}

=== FILE: json.dfy ===
/** The decoded JSON request body as the handlers see it: the value Flask's
    `request.json` produces and `json.loads(json.dumps(...))` hands back
    unchanged. Lookups follow Python's indexing rules; every way in which
    Python would raise is a `None`. */
module Json {
  import opened Wrappers

  datatype Json =
    | JNull
    | JBool(b: bool)
    | JNumber(n: real)
    | JString(s: string)
    | JArray(items: seq<Json>)
    | JObject(fields: map<string, Json>)

  /** Python truthiness of a decoded value, as `or` tests it: the falsy
      values are exactly `None`, `False`, zero and the empty string, list and
      dict. */
  function Truthy(j: Json): (r: bool)
    ensures !r <==>
      j == JNull || j == JBool(false) || j == JNumber(0.0) ||
      j == JString("") || j == JArray([]) || j == JObject(map[])
  {
    EmptyObject(j);
    match j
    case JNull => false
    case JBool(b) => b
    case JNumber(n) => n != 0.0
    case JString(s) => |s| > 0
    case JArray(items) => |items| > 0
    case JObject(fields) => |fields| > 0
  }

  /** A dict with no entries is the empty dict. */
  lemma EmptyObject(j: Json)
    ensures j.JObject? && |j.fields| == 0 ==> j.fields == map[]
  {
    if j.JObject? && |j.fields| == 0 {
      assert j.fields.Keys == {};
    }
  }

  /** `j[key]` with a string key: a dict answers when it holds the key
      (otherwise `KeyError`); lists, strings, numbers, booleans and `None`
      raise `TypeError`. */
  function Get(j: Json, key: string): (r: Option<Json>)
    ensures r.Some? <==> j.JObject? && key in j.fields
    ensures r.Some? ==> r.value == j.fields[key]
  {
    match j
    case JObject(fields) => if key in fields then Some(fields[key]) else None
    case _ => None
  }

  /** `j[0]`: the first element of a non-empty list, or the first character
      of a non-empty string as a one-character string. An empty list or string
      raises `IndexError`; a dict raises `KeyError` (JSON object keys are
      strings, never `0`); anything else raises `TypeError`. */
  function First(j: Json): (r: Option<Json>)
    ensures r.Some? <==> (j.JArray? && |j.items| > 0) || (j.JString? && |j.s| > 0)
    ensures r.Some? && j.JString? ==> r.value == JString([j.s[0]])
    ensures r.Some? && j.JArray? ==> r.value == j.items[0]
  {
    match j
    case JArray(items) => if |items| > 0 then Some(items[0]) else None
    case JString(s) => if |s| > 0 then Some(JString([s[0]])) else None
    case _ => None
  }

  /** A value that Python code can call string methods on and write to a
      text file. */
  function Text(j: Json): (r: Option<string>)
    ensures r.Some? <==> j.JString?
    ensures r.Some? ==> j == JString(r.value)
  {
    match j
    case JString(s) => Some(s)
    case _ => None
  }
}

=== FILE: logfilters.dfy ===
/** The three filters src/app.py attaches to the `werkzeug` logger, in the
    order they run on each record's message: drop the bracketed timestamp,
    rename `werkzeug:` to `app:flask:`, lower-case the `I` of `I:`. */
module LogFilters {
  import opened Wrappers
  import opened Text

  /** `FilterReplaceWerkzeug`: every `werkzeug:` becomes `app:flask:`. The
      message never gets shorter and no `werkzeug:` is left in it. */
  function ReplaceWerkzeug(msg: string): (r: string)
    ensures |r| >= |msg|
    ensures NoneBefore(r, "werkzeug:", |r| + 1)
  {
    ReplaceAllClears(msg, "werkzeug:", "app:flask:");
    ReplaceAll(msg, "werkzeug:", "app:flask:")
  }

  /** `FilterReplaceLowercaseI`: every `I:` becomes `i:`. The message keeps
      its length and no `I:` is left in it. */
  function LowercaseI(msg: string): (r: string)
    ensures |r| == |msg|
    ensures NoneBefore(r, "I:", |r| + 1)
  {
    ReplaceAllClears(msg, "I:", "i:");
    ReplaceAll(msg, "I:", "i:")
  }

  /** An `I` that starts an `I:` in `s`. */
  predicate CapitalBeforeColon(s: string, k: nat)
    requires k < |s|
  {
    s[k] == 'I' && k + 1 < |s| && s[k + 1] == ':'
  }

  /** `FilterReplaceLowercaseI` changes exactly the `I`s that are followed
      by a colon, each into `i`, and nothing else. */
  lemma {:induction false} LowercaseIPointwise(s: string)
    ensures |LowercaseI(s)| == |s|
    ensures forall k :: 0 <= k < |s| ==>
      LowercaseI(s)[k] == (if CapitalBeforeColon(s, k) then 'i' else s[k])
    decreases |s|
  {
    var r := LowercaseI(s);
    if "I:" <= s {
      var t := s[2..];
      LowercaseIPointwise(t);
      assert r == "i:" + LowercaseI(t);
      forall k | 0 <= k < |s|
        ensures r[k] == (if CapitalBeforeColon(s, k) then 'i' else s[k])
      {
        if k >= 2 {
          assert r[k] == LowercaseI(t)[k - 2];
          assert CapitalBeforeColon(s, k) == CapitalBeforeColon(t, k - 2);
        }
      }
    } else if |s| > 0 {
      var t := s[1..];
      LowercaseIPointwise(t);
      assert r == [s[0]] + LowercaseI(t);
      forall k | 0 <= k < |s|
        ensures r[k] == (if CapitalBeforeColon(s, k) then 'i' else s[k])
      {
        if k >= 1 {
          assert r[k] == LowercaseI(t)[k - 1];
          assert CapitalBeforeColon(s, k) == CapitalBeforeColon(t, k - 1);
        } else {
          assert !CapitalBeforeColon(s, 0);
        }
      }
    }
  }

  /** After the filter no `I:` is left, so running it again changes
      nothing. */
  lemma LowercaseIIdempotent(s: string)
    ensures NoneBefore(LowercaseI(s), "I:", |LowercaseI(s)| + 1)
    ensures LowercaseI(LowercaseI(s)) == LowercaseI(s)
  {
    ReplaceAllClears(s, "I:", "i:");
    ReplaceAllAbsent(LowercaseI(s), "I:", "i:");
  }

  /** After the renaming no `werkzeug:` is left, so running it again
      changes nothing. */
  lemma ReplaceWerkzeugIdempotent(s: string)
    ensures NoneBefore(ReplaceWerkzeug(s), "werkzeug:", |ReplaceWerkzeug(s)| + 1)
    ensures ReplaceWerkzeug(ReplaceWerkzeug(s)) == ReplaceWerkzeug(s)
  {
    ReplaceAllClears(s, "werkzeug:", "app:flask:");
    ReplaceAllAbsent(ReplaceWerkzeug(s), "werkzeug:", "app:flask:");
  }

  /** The literal part ` - [` of the pattern ` - \[.+?]`. */
  const DateOpen := " - ["

  /** `j` ends the lazy `.+?]` at the start of `t`: at least one character,
      none of them a line break (`.` does not match one), and `t[j]` is the
      first `]` after the first character. */
  predicate IsLazyClose(t: string, j: int) {
    && 1 <= j < |t|
    && t[j] == ']'
    && (forall k :: 0 <= k < j ==> t[k] != '\n')
    && (forall k :: 1 <= k < j ==> t[k] != ']')
  }

  /** The matcher extending `.+?` one character at a time from length `j`. */
  function Scan(t: string, j: nat): (r: Option<nat>)
    requires 1 <= j <= |t|
    requires forall k :: 0 <= k < j - 1 ==> t[k] != '\n'
    requires forall k :: 1 <= k < j ==> t[k] != ']'
    ensures r.Some? ==> IsLazyClose(t, r.value)
    ensures r.None? ==> forall m :: !IsLazyClose(t, m)
    decreases |t| - j
  {
    if j == |t| then None
    else if t[j - 1] == '\n' then None
    else if t[j] == ']' then Some(j)
    else Scan(t, j + 1)
  }

  /** Where `.+?]` ends when matched at the start of `t`, if it matches. */
  function LazyClose(t: string): (r: Option<nat>)
    ensures r.Some? ==> IsLazyClose(t, r.value)
    ensures r.None? ==> forall m :: !IsLazyClose(t, m)
  {
    if |t| == 0 then None else Scan(t, 1)
  }

  /** At most one end satisfies the rule. */
  lemma LazyCloseUnique(t: string, i: int, j: int)
    requires IsLazyClose(t, i) && IsLazyClose(t, j)
    ensures i == j
  {
  }

  /** `FilterRemoveDate`: `re.sub(r' - \[.+?]', '', msg)`. The scan tries
      each position from the left; a match is deleted and the scan resumes
      after it, a failed attempt keeps one character. */
  function RemoveDate(s: string): (r: string)
    ensures |r| <= |s|
    ensures |s| > 0 && !(DateOpen <= s) ==> |r| > 0 && r[0] == s[0]
    decreases |s|
  {
    if DateOpen <= s then
      match LazyClose(s[|DateOpen|..])
      case Some(j) => RemoveDate(s[|DateOpen| + j + 1..])
      case None => [s[0]] + RemoveDate(s[1..])
    else if |s| == 0 then s
    else [s[0]] + RemoveDate(s[1..])
  }

  lemma RemoveDateSkip(c: char, s: string)
    requires !OccursAt([c] + s, DateOpen, 0)
    ensures RemoveDate([c] + s) == [c] + RemoveDate(s)
  {
    assert ([c] + s)[1..] == s;
  }

  /** A message without ` - [` passes unchanged. */
  lemma {:induction false} RemoveDateAbsent(s: string)
    requires NoneBefore(s, DateOpen, |s| + 1)
    ensures RemoveDate(s) == s
    decreases |s|
  {
    if |s| > 0 {
      assert !OccursAt(s, DateOpen, 0);
      assert s == [s[0]] + s[1..];
      RemoveDateSkip(s[0], s[1..]);
      assert NoneBefore(s[1..], DateOpen, |s[1..]| + 1) by {
        forall i: nat | i < |s[1..]| + 1
          ensures !OccursAt(s[1..], DateOpen, i)
        {
          OccursShift(s[0], s[1..], DateOpen, i);
          assert !OccursAt(s, DateOpen, i + 1);
        }
      }
      RemoveDateAbsent(s[1..]);
    }
  }

  /** The leftmost ` - [x]` is deleted, with `x` the shortest non-empty run
      of non-line-break characters that a `]` closes; what precedes it is
      kept and the scan resumes after the `]`. */
  lemma {:induction false} RemoveDateLeftmost(a: string, x: string, rest: string)
    requires NoneBefore(a + DateOpen + x + "]" + rest, DateOpen, |a|)
    requires |x| >= 1
    requires forall k :: 0 <= k < |x| ==> x[k] != '\n'
    requires forall k :: 1 <= k < |x| ==> x[k] != ']'
    ensures RemoveDate(a + DateOpen + x + "]" + rest) == a + RemoveDate(rest)
  {
    var t := DateOpen + (x + "]" + rest);
    RegroupMatch(a, DateOpen, x, "]", rest);
    calc {
      RemoveDate(a + DateOpen + x + "]" + rest);
      RemoveDate(a + t);
      { RemoveDateKeepsPrefix(a, t); }
      a + RemoveDate(t);
      { RemoveDateAtStart(x, rest); }
      a + RemoveDate(rest);
    }
  }

  lemma RegroupMatch(a: string, o: string, x: string, c: string, rest: string)
    ensures a + o + x + c + rest == a + (o + (x + c + rest))
  {
  }

  /** A prefix in which no ` - [` starts is copied unchanged. */
  lemma {:induction false} RemoveDateKeepsPrefix(a: string, t: string)
    requires NoneBefore(a + t, DateOpen, |a|)
    ensures RemoveDate(a + t) == a + RemoveDate(t)
    decreases |a|
  {
    if |a| > 0 {
      var a' := a[1..];
      assert a + t == [a[0]] + (a' + t);
      assert !OccursAt([a[0]] + (a' + t), DateOpen, 0);
      assert NoneBefore(a' + t, DateOpen, |a'|) by {
        forall i: nat | i < |a'|
          ensures !OccursAt(a' + t, DateOpen, i)
        {
          OccursShift(a[0], a' + t, DateOpen, i);
        }
      }
      calc {
        RemoveDate([a[0]] + (a' + t));
        { RemoveDateSkip(a[0], a' + t); }
        [a[0]] + RemoveDate(a' + t);
        { RemoveDateKeepsPrefix(a', t); }
        [a[0]] + (a' + RemoveDate(t));
        { assert [a[0]] + a' == a; }
        a + RemoveDate(t);
      }
    } else {
      assert a + t == t;
    }
  }

  /** One match step: ` - [` at the start and `.+?]` closing after it. */
  lemma RemoveDateMatch(s: string)
    requires DateOpen <= s && LazyClose(s[|DateOpen|..]).Some?
    ensures |DateOpen| + LazyClose(s[|DateOpen|..]).value + 1 <= |s|
    ensures RemoveDate(s) == RemoveDate(s[|DateOpen| + LazyClose(s[|DateOpen|..]).value + 1..])
  {
    LazyCloseBound(s[|DateOpen|..]);
  }

  /** The lazy close lies inside the text it closes. */
  lemma LazyCloseBound(t: string)
    ensures LazyClose(t).Some? ==> 1 <= LazyClose(t).value < |t|
  {
  }

  /** A match at the very start is deleted. */
  lemma RemoveDateAtStart(x: string, rest: string)
    requires |x| >= 1
    requires forall k :: 0 <= k < |x| ==> x[k] != '\n'
    requires forall k :: 1 <= k < |x| ==> x[k] != ']'
    ensures RemoveDate(DateOpen + (x + "]" + rest)) == RemoveDate(rest)
  {
    var t := x + "]" + rest;
    SplitAfter(DateOpen, t);
    SplitAfter(x + "]", rest);
    assert IsLazyClose(t, |x|);
    LazyCloseUnique(t, LazyClose(t).value, |x|);
    calc {
      RemoveDate(DateOpen + t);
      { RemoveDateMatch(DateOpen + t); }
      RemoveDate((DateOpen + t)[|DateOpen| + |x| + 1..]);
      { SplitAfter2(DateOpen, t, |x| + 1); }
      RemoveDate(t[|x| + 1..]);
    }
  }

  lemma SplitAfter(u: string, v: string)
    ensures u <= u + v && (u + v)[|u|..] == v
  {
  }

  lemma SplitAfter2(u: string, v: string, k: nat)
    requires k <= |v|
    ensures (u + v)[|u| + k..] == v[k..]
  {
  }

  /** Every occurrence of ` - [` ends in `[`, so a text without `[` has
      none, and one that has its first `[` at the end of ` - [` has none
      before that. */
  lemma NoBracketNoOpen(a: string, tail: string)
    requires '[' !in a
    ensures NoneBefore(a + DateOpen + tail, DateOpen, |a|)
    ensures NoneBefore(a, DateOpen, |a| + 1)
  {
    var s := a + DateOpen + tail;
    forall i: nat | i < |a|
      ensures !OccursAt(s, DateOpen, i)
    {
      assert s[i..i + 4][3] == s[i + 3];
      if i + 3 < |a| {
        assert s[i + 3] == a[i + 3];
      } else {
        assert s[i + 3] == DateOpen[i + 3 - |a|];
      }
    }
    forall i: nat | i < |a| + 1
      ensures !OccursAt(a, DateOpen, i)
    {
      if i + 3 < |a| {
        assert a[i + 3] != '[';
      }
    }
  }

  /** The example of src/app.py: the access-log line loses its timestamp. */
  lemma RemoveDateExample(a: string, x: string, rest: string)
    requires a == "192.168.0.102 -"
    requires x == "30/Jun/2024 01:14:03"
    requires rest == " \"%s\" %s %s"
    ensures RemoveDate(a + DateOpen + x + "]" + rest) == a + rest
  {
    NoBracketNoOpen(a, x + "]" + rest);
    assert a + DateOpen + (x + "]" + rest) == a + DateOpen + x + "]" + rest;
    RemoveDateLeftmost(a, x, rest);
    NoBracketNoOpen(rest, "");
    RemoveDateAbsent(rest);
  }

  /** The filters in the order they were added to the logger: whatever the
      message, no `I:` survives the chain. */
  function FilterMessage(msg: string): (r: string)
    ensures NoneBefore(r, "I:", |r| + 1)
  {
    LowercaseI(ReplaceWerkzeug(RemoveDate(msg)))
  }

  /** The access-log line of the src/app.py example passes the whole chain:
      the timestamp goes, and the other two filters find nothing to change. */
  lemma FilterMessageExample(a: string, x: string, rest: string)
    requires a == "192.168.0.102 -"
    requires x == "30/Jun/2024 01:14:03"
    requires rest == " \"%s\" %s %s"
    ensures FilterMessage(a + DateOpen + x + "]" + rest) == a + rest
  {
    RemoveDateExample(a, x, rest);
    var m := a + rest;
    assert 'w' !in m && 'I' !in m;
    NoLeadNoOccurrence(m, "werkzeug:");
    ReplaceAllAbsent(m, "werkzeug:", "app:flask:");
    NoLeadNoOccurrence(m, "I:");
    ReplaceAllAbsent(m, "I:", "i:");
  }
}

=== FILE: namer.dfy ===
/** The output-file naming of `generate_pdf` (src/app.py): the base name
    `/app/data/output/{date}-{label}-{recipient}` and the collision rule that
    probes `base.pdf`, `base-1.pdf`, `base-2.pdf`, ... until it finds a path
    that does not exist yet. The file system is the finite set of paths that
    exist when the request is handled. */
module Namer {
  import opened Text

  const OutputDir := "/app/data/output/"

  /** What `time.strftime("%Y%m%d")` yields: eight decimal digits. */
  predicate IsDateStamp(date: string) {
    |date| == 8 && forall i :: 0 <= i < |date| ==> IsDigit(date[i])
  }

  /** One step of `posixpath.join`: an absolute part replaces the path so
      far; otherwise the part is appended, with a `/` in between unless the
      path is empty or already ends in one. */
  function JoinStep(path: string, part: string): (r: string)
    ensures "/" <= part ==> r == part
    // A relative part keeps the path in front and gains at most one `/`.
    ensures !("/" <= part) ==>
      path <= r && |r| - |part| >= |path| && r[|r| - |part|..] == part &&
      |r| <= |path| + 1 + |part|
  {
    if "/" <= part then part
    else if |path| == 0 || path[|path| - 1] == '/' then path + part
    else path + "/" + part
  }

  /** `os.path.join(first, *rest)`: the steps from left to right. */
  function PathJoin(first: string, rest: seq<string>): (r: string)
    // An absolute last part is the whole result.
    ensures |rest| > 0 && "/" <= rest[|rest| - 1] ==> r == rest[|rest| - 1]
    decreases |rest|
  {
    if |rest| == 0 then first
    else
      assert |rest| > 1 ==> rest[1..][|rest[1..]| - 1] == rest[|rest| - 1];
      PathJoin(JoinStep(first, rest[0]), rest[1..])
  }

  /** An absolute part discards everything joined before it: the join
      starts afresh from that part. */
  lemma {:induction false} PathJoinAbsolute(first: string, rest: seq<string>, i: nat)
    requires i < |rest| && "/" <= rest[i]
    ensures PathJoin(first, rest) == PathJoin(rest[i], rest[i + 1..])
    decreases i
  {
    if i > 0 {
      PathJoinAbsolute(JoinStep(first, rest[0]), rest[1..], i - 1);
      assert rest[1..][i - 1] == rest[i];
      assert rest[1..][i..] == rest[i + 1..];
    }
  }

  /** `os.path.join("/", "app", "data", "output", f'{date}-{label}-{recipient}')`.
      The last component starts with a digit of the date, never with `/`, so
      the join is a plain concatenation below the output directory. */
  function BasePath(date: string, kindLabel: string, recipient: string): (base: string)
    requires IsDateStamp(date)
    ensures base == OutputDir + date + "-" + kindLabel + "-" + recipient
    ensures OutputDir <= base
    ensures base[|OutputDir|..] == date + "-" + kindLabel + "-" + recipient
  {
    var name := date + "-" + kindLabel + "-" + recipient;
    assert name[0] == date[0];
    OutputDirJoin(name);
    PathJoin("/", ["app", "data", "output", name])
  }

  /** Joining below `/app/data/output` a name that does not start with `/`
      gives the output directory followed by the name. */
  lemma OutputDirJoin(name: string)
    requires |name| > 0 && name[0] != '/'
    ensures PathJoin("/", ["app", "data", "output", name]) == OutputDir + name
  {
    calc {
      PathJoin("/", ["app", "data", "output", name]);
      { PathJoinCons("/", "app", ["data", "output", name]); }
      PathJoin(JoinStep("/", "app"), ["data", "output", name]);
      { OutputDirSteps(); PathJoinCons("/app", "data", ["output", name]); }
      PathJoin(JoinStep("/app", "data"), ["output", name]);
      { OutputDirSteps(); PathJoinCons("/app/data", "output", [name]); }
      PathJoin(JoinStep("/app/data", "output"), [name]);
      { OutputDirSteps(); PathJoinCons("/app/data/output", name, []); }
      PathJoin(JoinStep("/app/data/output", name), []);
      { AppendStep("/app/data/output", name); }
      OutputDir + name;
    }
  }

  lemma PathJoinCons(first: string, part: string, rest: seq<string>)
    ensures PathJoin(first, [part] + rest) == PathJoin(JoinStep(first, part), rest)
  {
    assert ([part] + rest)[1..] == rest;
  }

  /** The three fixed steps below the root. */
  lemma OutputDirSteps()
    ensures JoinStep("/", "app") == "/app"
    ensures JoinStep("/app", "data") == "/app/data"
    ensures JoinStep("/app/data", "output") == "/app/data/output"
  {
    AppendStep("", "app");
    assert "" + "/" == "/" && "" + "/" + "app" == "/app";
    AppendStep("/app", "data");
    AppendStep("/app/data", "output");
  }

  /** A relative part is appended to a path after a separating `/`, where
      the path does not already end in one. */
  lemma AppendStep(path: string, part: string)
    requires |part| > 0 && part[0] != '/'
    ensures JoinStep(path + "/", part) == path + "/" + part
    ensures |path| > 0 && path[|path| - 1] != '/' ==> JoinStep(path, part) == path + "/" + part
  {
    assert !("/" <= part);
  }

  /** The base name can be read back: the date is its first eight
      characters, and, since no label contains a dash, the label runs up to
      the next dash. So two requests share a base name only when they have
      the same day, the same kind and the same normalised recipient. */
  lemma BasePathInjective(d1: string, l1: string, r1: string, d2: string, l2: string, r2: string)
    requires IsDateStamp(d1) && IsDateStamp(d2)
    requires '-' !in l1 && '-' !in l2
    requires BasePath(d1, l1, r1) == BasePath(d2, l2, r2)
    ensures d1 == d2 && l1 == l2 && r1 == r2
  {
    var t1 := d1 + "-" + (l1 + "-" + r1);
    var t2 := d2 + "-" + (l2 + "-" + r2);
    assert t1 == BasePath(d1, l1, r1)[|OutputDir|..];
    assert t2 == BasePath(d2, l2, r2)[|OutputDir|..];
    assert d1 == t1[..8] && d2 == t2[..8];
    assert l1 + "-" + r1 == t1[9..] && l2 + "-" + r2 == t2[9..];
    SplitAtFirstDash(l1, r1, l2, r2);
  }

  /** A dash-free prefix ends at the first dash. */
  lemma SplitAtFirstDash(a1: string, b1: string, a2: string, b2: string)
    requires '-' !in a1 && '-' !in a2
    requires a1 + "-" + b1 == a2 + "-" + b2
    ensures a1 == a2 && b1 == b2
  {
    var s := a1 + "-" + b1;
    FirstDash(a1, b1);
    FirstDash(a2, b2);
    assert |a1| == |a2|;
    assert a1 == s[..|a1|] && a2 == s[..|a2|];
    assert b1 == s[|a1| + 1..] && b2 == s[|a2| + 1..];
  }

  lemma FirstDash(a: string, b: string)
    requires '-' !in a
    ensures (a + "-" + b)[|a|] == '-'
    ensures forall k :: 0 <= k < |a| ==> (a + "-" + b)[k] != '-'
  {
    assert forall k :: 0 <= k < |a| ==> (a + "-" + b)[k] == a[k];
  }

  /** The `n`-th path the probe looks at: `base.pdf` for 0, `base-n.pdf`
      after that. */
  function Candidate(base: string, n: nat): (p: string)
    ensures base <= p && |p| >= |base| + 4
    ensures p[|p| - 4..] == ".pdf"
    ensures n == 0 <==> |p| == |base| + 4
  {
    if n == 0 then base + ".pdf" else base + "-" + Decimal(n) + ".pdf"
  }

  /** The probe never looks at the same path twice. */
  lemma CandidateInjective(base: string, m: nat, n: nat)
    requires Candidate(base, m) == Candidate(base, n)
    ensures m == n
  {
    var p := Candidate(base, m);
    if m > 0 && n > 0 {
      assert p[|base| + 1..|p| - 4] == Decimal(m);
      assert Candidate(base, n)[|base| + 1..|p| - 4] == Decimal(n);
      DecimalInjective(m, n);
    }
  }

  /** The suffixed paths `base-1.pdf` .. `base-n.pdf`. */
  function Suffixed(base: string, n: nat): set<string>
  {
    set k | 1 <= k <= n :: Candidate(base, k)
  }

  lemma {:induction false} SuffixedSize(base: string, n: nat)
    ensures |Suffixed(base, n)| == n
    decreases n
  {
    if n > 0 {
      SuffixedSize(base, n - 1);
      assert Suffixed(base, n) == Suffixed(base, n - 1) + {Candidate(base, n)};
      if Candidate(base, n) in Suffixed(base, n - 1) {
        var k :| 1 <= k <= n - 1 && Candidate(base, k) == Candidate(base, n);
        CandidateInjective(base, k, n);
      }
    }
  }

  /** If `base-1.pdf` .. `base-n.pdf` all exist, there are at least `n`
      existing paths: the probe cannot run past the size of the directory. */
  lemma ProbeBound(base: string, existing: set<string>, n: nat)
    requires forall k :: 1 <= k <= n ==> Candidate(base, k) in existing
    ensures n <= |existing|
  {
    var seen := Suffixed(base, n);
    SuffixedSize(base, n);
    assert seen <= existing;
    assert existing == seen + (existing - seen);
  }

  /** `n` is the suffix the source settles on: `base.pdf` when it is free,
      otherwise the first `n >= 1` with `base-n.pdf` free, all of
      `base-1.pdf` .. `base-(n-1).pdf` being taken. */
  predicate IsFreeSuffix(base: string, existing: set<string>, n: nat) {
    && Candidate(base, n) !in existing
    && (n == 0 <==> Candidate(base, 0) !in existing)
    && forall k :: 1 <= k < n ==> Candidate(base, k) in existing
  }

  /** At most one suffix satisfies the rule. */
  lemma FreeSuffixUnique(base: string, existing: set<string>, m: nat, n: nat)
    requires IsFreeSuffix(base, existing, m) && IsFreeSuffix(base, existing, n)
    ensures m == n
  {
  }

  /** The counting part of the probe, from `counter` on. */
  function SearchFrom(base: string, existing: set<string>, counter: nat): (n: nat)
    requires counter >= 1
    requires forall k :: 1 <= k < counter ==> Candidate(base, k) in existing
    ensures n >= counter
    ensures Candidate(base, n) !in existing
    ensures forall k :: 1 <= k < n ==> Candidate(base, k) in existing
    decreases |existing| + 1 - counter
  {
    if Candidate(base, counter) in existing then
      ProbeBound(base, existing, counter);
      SearchFrom(base, existing, counter + 1)
    else
      counter
  }

  /** The suffix the probe of src/app.py chooses; it exists for every finite
      set of existing paths. */
  function FreeSuffix(base: string, existing: set<string>): (n: nat)
    ensures IsFreeSuffix(base, existing, n)
  {
    if Candidate(base, 0) in existing then SearchFrom(base, existing, 1) else 0
  }

  /** The output path: never one that already exists, so nothing is
      overwritten. */
  function OutputPath(base: string, existing: set<string>): (path: string)
    ensures path !in existing
    ensures base <= path
    ensures base + ".pdf" !in existing ==> path == base + ".pdf"
    // Otherwise it is the first free suffixed path: every one before it is taken.
    ensures base + ".pdf" in existing ==>
      exists n: nat :: n >= 1 && path == Candidate(base, n) &&
        forall k :: 1 <= k < n ==> Candidate(base, k) in existing
  {
    Candidate(base, FreeSuffix(base, existing))
  }

  /** The probe loop as src/app.py writes it: test `base.pdf`; if it exists,
      count from 1 while `base-{counter}.pdf` exists. */
  method ProbeOutputPath(base: string, existing: set<string>) returns (path: string)
    ensures path !in existing
    ensures path == Candidate(base, FreeSuffix(base, existing))
  {
    var counter: nat := 0;
    if base + ".pdf" in existing {
      counter := 1;
      while base + "-" + Decimal(counter) + ".pdf" in existing
        invariant counter >= 1
        invariant forall k :: 1 <= k < counter ==> Candidate(base, k) in existing
        decreases |existing| + 1 - counter
      {
        ProbeBound(base, existing, counter);
        counter := counter + 1;
      }
      path := base + "-" + Decimal(counter) + ".pdf";
    } else {
      path := base + ".pdf";
    }
    assert IsFreeSuffix(base, existing, counter);
    FreeSuffixUnique(base, existing, counter, FreeSuffix(base, existing));
  }

  /** Repeating the same request after the first file was written picks the
      next suffix: `base.pdf`, then `base-1.pdf`, then `base-2.pdf`. */
  lemma RepeatedRequests(base: string, existing: set<string>)
    requires base + ".pdf" !in existing
    requires base + "-1.pdf" !in existing
    ensures OutputPath(base, existing) == base + ".pdf"
    ensures OutputPath(base, existing + {base + ".pdf"}) == base + "-1.pdf"
  {
    assert |base + "-1.pdf"| != |base + ".pdf"|;
    SecondSuffix(base, existing + {base + ".pdf"});
  }

  /** With `base.pdf` taken and `base-1.pdf` free, the probe stops at 1. */
  lemma SecondSuffix(base: string, existing: set<string>)
    requires base + ".pdf" in existing
    requires base + "-1.pdf" !in existing
    ensures OutputPath(base, existing) == base + "-1.pdf"
  {
    assert Candidate(base, 1) == base + "-1.pdf" by {
      assert Decimal(1) == "1";
      assert base + "-" + "1" + ".pdf" == base + "-1.pdf";
    }
    assert IsFreeSuffix(base, existing, 1);
    FreeSuffixUnique(base, existing, 1, FreeSuffix(base, existing));
  }
}

=== FILE: normalizer.dfy ===
/** The recipient-name normaliser of src/app.py (`normalize`): it lower-cases a
    display name, folds the German umlauts and sharp s to ASCII digraphs and
    deletes commas, full stops and spaces, so that the name can be used inside
    an output file name. */
module Normalizer {
  import opened Text

  /** Python's `str.lower()` on one character, for the characters whose case
      the model knows: ASCII capitals, the Latin-1 capitals U+00C0..U+00DE
      (except the multiplication sign U+00D7) and the capital sharp s U+1E9E. */
  function LowerChar(c: char): (l: char)
    ensures !IsCapital(l)
    ensures !IsCapital(c) ==> l == c
    ensures IsCapital(c) ==> l != c
    ensures 'A' <= c <= 'Z' ==> 'a' <= l <= 'z'
  {
    if 'A' <= c <= 'Z' then (c as int + 32) as char
    else if '\U{00C0}' <= c <= '\U{00DE}' && c != '\U{00D7}' then (c as int + 32) as char
    else if c == '\U{1E9E}' then '\U{00DF}'
    else c
  }

  /** Distinct capitals have distinct lower-case forms, so lower-casing
      merges a capital only with its own lower-case letter. */
  lemma LowerCharInjective(c: char, d: char)
    requires IsCapital(c) && IsCapital(d)
    requires LowerChar(c) == LowerChar(d)
    ensures c == d
  {
  }

  /** The characters `LowerChar` changes. */
  predicate IsCapital(c: char) {
    || 'A' <= c <= 'Z'
    || ('\U{00C0}' <= c <= '\U{00DE}' && c != '\U{00D7}')
    || c == '\U{1E9E}'
  }

  /** `str.lower()`: every character lower-cased, length unchanged. */
  function Lower(s: string): (r: string)
    ensures |r| == |s|
    ensures forall i :: 0 <= i < |s| ==> r[i] == LowerChar(s[i])
  {
    seq(|s|, i requires 0 <= i < |s| => LowerChar(s[i]))
  }

  /** The replacements of `normalize`, in the order the source chains them. */
  const Rules: seq<(char, string)> :=
    [('ö', "oe"), ('ä', "ae"), ('ß', "ss"), ('ü', "ue"), (',', ""), ('.', ""), (' ', "")]

  /** `s.replace(c1, w1).replace(c2, w2)...` for the given rules. Whatever
      the rules, the empty name stays empty. */
  function ReplaceChain(s: string, rules: seq<(char, string)>): (r: string)
    ensures |s| == 0 ==> |r| == 0
    decreases |rules|
  {
    if |rules| == 0 then s
    else ReplaceChain(ReplaceAll(s, [rules[0].0], rules[0].1), rules[1..])
  }

  /** A character left alone by every rule. */
  predicate Untouched(c: char, rules: seq<(char, string)>) {
    forall k :: 0 <= k < |rules| ==> rules[k].0 != c
  }

  /** A character that can appear in a normalised name: already lower case
      and not one of the characters that `normalize` rewrites. */
  predicate IsNormalChar(c: char) {
    !IsCapital(c) && Untouched(c, Rules)
  }

  /** The characters some rule of `normalize` rewrites. */
  predicate IsRewritten(c: char) {
    c == 'ö' || c == 'ä' || c == 'ß' || c == 'ü' || c == ',' || c == '.' || c == ' '
  }

  lemma UntouchedByRules(c: char)
    ensures Untouched(c, Rules) <==> !IsRewritten(c)
  {
    assert Rules[0].0 == 'ö' && Rules[1].0 == 'ä' && Rules[2].0 == 'ß' && Rules[3].0 == 'ü';
    assert Rules[4].0 == ',' && Rules[5].0 == '.' && Rules[6].0 == ' ';
  }

  predicate IsNormal(s: string) {
    forall i :: 0 <= i < |s| ==> IsNormalChar(s[i])
  }

  /** The source's `normalize`: lower-case first, then the replacement chain.
      Its result never contains a capital the model knows, an umlaut, a sharp
      s, a comma, a full stop or a space. */
  function Normalize(name: string): (r: string)
    ensures IsNormal(r)
  {
    NormalizeMatchesSpec(name);
    NormalizeSpecIsNormal(name);
    ReplaceChain(Lower(name), Rules)
  }

  /** What `normalize` does to one character: an independent, character-wise
      reference for the replacement chain. */
  function Fold(c: char): string
  {
    var l := LowerChar(c);
    if l == 'ö' then "oe"
    else if l == 'ä' then "ae"
    else if l == 'ß' then "ss"
    else if l == 'ü' then "ue"
    else if l == ',' || l == '.' || l == ' ' then ""
    else [l]
  }

  /** Reference definition: fold every character on its own and concatenate. */
  function NormalizeSpec(s: string): string
    decreases |s|
  {
    if |s| == 0 then "" else Fold(s[0]) + NormalizeSpec(s[1..])
  }

  lemma {:induction false} ReplaceChainConcat(a: string, b: string, rules: seq<(char, string)>)
    ensures ReplaceChain(a + b, rules) == ReplaceChain(a, rules) + ReplaceChain(b, rules)
    decreases |rules|
  {
    if |rules| > 0 {
      var (c, w) := rules[0];
      ReplaceCharConcat(a, b, c, w);
      ReplaceChainConcat(ReplaceAll(a, [c], w), ReplaceAll(b, [c], w), rules[1..]);
    }
  }

  lemma ReplaceCharAbsent(s: string, c: char, w: string)
    requires c !in s
    ensures ReplaceAll(s, [c], w) == s
  {
    forall i: nat | i < |s| + 1
      ensures !OccursAt(s, [c], i)
    {
      if i < |s| {
        assert s[i..i + 1] == [s[i]];
      }
    }
    ReplaceAllAbsent(s, [c], w);
  }

  /** A text in which no rule finds its character passes the whole chain
      unchanged. */
  lemma {:induction false} ReplaceChainUntouched(s: string, rules: seq<(char, string)>)
    requires forall i :: 0 <= i < |s| ==> Untouched(s[i], rules)
    ensures ReplaceChain(s, rules) == s
    decreases |rules|
  {
    if |rules| > 0 {
      ReplaceCharAbsent(s, rules[0].0, rules[0].1);
      forall i | 0 <= i < |s|
        ensures Untouched(s[i], rules[1..])
      {
        assert Untouched(s[i], rules);
        UntouchedSuffix(s[i], rules, 1);
      }
      ReplaceChainUntouched(s, rules[1..]);
    }
  }

  lemma UntouchedSuffix(c: char, rules: seq<(char, string)>, k: nat)
    requires k <= |rules| && Untouched(c, rules)
    ensures Untouched(c, rules[k..])
  {
    forall j | 0 <= j < |rules[k..]|
      ensures rules[k..][j].0 != c
    {
      assert rules[k..][j] == rules[k + j];
    }
  }

  /** A character that the first `k` rules leave alone and the rule `k`
      rewrites to a text no later rule touches ends up as that text. */
  lemma {:induction false} ReplaceChainHit(x: char, rules: seq<(char, string)>, k: nat)
    requires k < |rules| && rules[k].0 == x
    requires forall j :: 0 <= j < k ==> rules[j].0 != x
    requires forall i :: 0 <= i < |rules[k].1| ==> Untouched(rules[k].1[i], rules[k + 1..])
    ensures ReplaceChain([x], rules) == rules[k].1
    decreases k
  {
    if k == 0 {
      var (c, w) := rules[0];
      assert [c] <= [x];
      assert [x][1..] == [];
      assert ReplaceAll([x], [c], w) == w + [];
      assert w + [] == w;
      ReplaceChainUntouched(w, rules[1..]);
      assert ReplaceChain([x], rules) == ReplaceChain(ReplaceAll([x], [c], w), rules[1..]);
    } else {
      ReplaceCharAbsent([x], rules[0].0, rules[0].1);
      assert rules[1..][k - 1] == rules[k];
      assert rules[1..][k..] == rules[k + 1..];
      ReplaceChainHit(x, rules[1..], k - 1);
    }
  }

  /** The chain applied to one lower-cased character is exactly `Fold`. */
  lemma ReplaceChainChar(c: char)
    ensures ReplaceChain([LowerChar(c)], Rules) == Fold(c)
  {
    var l := LowerChar(c);
    if IsRewritten(l) {
      var k := if l == 'ö' then 0 else if l == 'ä' then 1 else if l == 'ß' then 2
        else if l == 'ü' then 3 else if l == ',' then 4 else if l == '.' then 5 else 6;
      forall i | 0 <= i < |Rules[k].1|
        ensures Untouched(Rules[k].1[i], Rules[k + 1..])
      {
        UntouchedByRules(Rules[k].1[i]);
        UntouchedSuffix(Rules[k].1[i], Rules, k + 1);
      }
      ReplaceChainHit(l, Rules, k);
    } else {
      UntouchedByRules(l);
      ReplaceChainUntouched([l], Rules);
    }
  }

  /** The source's chain of replacements agrees with the character-wise
      reference on every input. */
  lemma {:induction false} NormalizeMatchesSpec(s: string)
    ensures ReplaceChain(Lower(s), Rules) == NormalizeSpec(s)
    decreases |s|
  {
    if |s| > 0 {
      var low := Lower(s);
      assert low == [LowerChar(s[0])] + Lower(s[1..]);
      ReplaceChainConcat([LowerChar(s[0])], Lower(s[1..]), Rules);
      ReplaceChainChar(s[0]);
      NormalizeMatchesSpec(s[1..]);
    }
  }

  lemma {:induction false} NormalizeSpecIsNormal(s: string)
    ensures IsNormal(NormalizeSpec(s))
    decreases |s|
  {
    if |s| > 0 {
      NormalizeSpecIsNormal(s[1..]);
      var f := Fold(s[0]);
      assert IsNormal(f);
      var r := NormalizeSpec(s);
      assert r == f + NormalizeSpec(s[1..]);
      forall i | 0 <= i < |r|
        ensures IsNormalChar(r[i])
      {
        if i >= |f| {
          assert r[i] == NormalizeSpec(s[1..])[i - |f|];
        }
      }
    }
  }

  /** A name that is already normal passes through unchanged. */
  lemma {:induction false} NormalizeSpecFixesNormal(s: string)
    requires IsNormal(s)
    ensures NormalizeSpec(s) == s
    decreases |s|
  {
    if |s| > 0 {
      assert IsNormalChar(s[0]);
      UntouchedByRules(s[0]);
      assert Fold(s[0]) == [s[0]];
      assert IsNormal(s[1..]) by {
        forall i | 0 <= i < |s[1..]|
          ensures IsNormalChar(s[1..][i])
        {
          assert s[1..][i] == s[i + 1];
        }
      }
      NormalizeSpecFixesNormal(s[1..]);
      assert [s[0]] + s[1..] == s;
    }
  }

  /** `normalize` is idempotent. */
  lemma NormalizeIdempotent(s: string)
    ensures Normalize(Normalize(s)) == Normalize(s)
  {
    var n := Normalize(s);
    NormalizeMatchesSpec(n);
    NormalizeSpecFixesNormal(n);
  }

  /** `normalize` distributes over concatenation, so a name is normalised word
      by word. */
  lemma NormalizeConcat(a: string, b: string)
    ensures Normalize(a + b) == Normalize(a) + Normalize(b)
  {
    assert Lower(a + b) == Lower(a) + Lower(b);
    ReplaceChainConcat(Lower(a), Lower(b), Rules);
  }

  /** `normalize` keeps path separators: a recipient such as "A/B" yields a
      normalised name with a `/` in it, which the output path then treats as
      a directory. */
  lemma NormalizeKeepsSlash(a: string, b: string)
    ensures Normalize(a + "/" + b) == Normalize(a) + "/" + Normalize(b)
  {
    NormalizeConcat(a + "/", b);
    NormalizeConcat(a, "/");
    NormalizeSlash("/");
  }

  lemma NormalizeSlash(s: string)
    requires s == "/"
    ensures Normalize(s) == "/"
  {
    NormalizeMatchesSpec(s);
    assert s == [s[0]] && s[1..] == "";
  }

  lemma {:induction false} NormalizeSpecConcat(a: string, b: string)
    ensures NormalizeSpec(a + b) == NormalizeSpec(a) + NormalizeSpec(b)
    decreases |a|
  {
    if |a| == 0 {
      assert a + b == b;
    } else {
      assert (a + b)[0] == a[0];
      assert (a + b)[1..] == a[1..] + b;
      NormalizeSpecConcat(a[1..], b);
    }
  }

  /** The example request's recipient: "Max Müller" becomes "maxmueller". */
  lemma NormalizeExample(name: string)
    requires name == "Max Müller"
    ensures Normalize(name) == "maxmueller"
  {
    NormalizeSpecExample();
    NormalizeMatchesSpec(name);
  }

  lemma NormalizeSpecExample()
    ensures NormalizeSpec("Max Müller") == "maxmueller"
  {
    calc {
      NormalizeSpec("Max Müller");
      { assert "Max Müller" == "Max" + (" Mü" + "ller");
        NormalizeSpecConcat("Max", " Mü" + "ller"); }
      NormalizeSpec("Max") + NormalizeSpec(" Mü" + "ller");
      { NormalizeSpecConcat(" Mü", "ller"); }
      NormalizeSpec("Max") + (NormalizeSpec(" Mü") + NormalizeSpec("ller"));
      { ExampleWords(); }
      "max" + ("mue" + "ller");
    }
  }

  lemma ExampleWords()
    ensures NormalizeSpec("Max") == "max"
    ensures NormalizeSpec(" Mü") == "mue"
    ensures NormalizeSpec("ller") == "ller"
  {
  }
}

=== FILE: templates.dfy ===
/** The `Template` enumeration of src/app.py and the `template_to_label`
    table that names the output files. */
module Templates {
  import opened Wrappers

  datatype Template = Invoice | Shipping | OrderConfirmation | Letterhead | Details

  const TemplateDir := "/app/data/templates/"

  /** The value of each enumeration member: the resource handed to the
      renderer as `template=`. Only `Details` is empty; every other value is
      a file in the template directory. */
  function TemplatePath(t: Template): (p: string)
    ensures |p| == 0 <==> t == Details
    ensures t != Details ==> TemplateDir <= p
  {
    match t
    case Invoice => "/app/data/templates/invoice-scrlttr2.tex"
    case Shipping => "/app/data/templates/shipping-note-scrlttr2.tex"
    case OrderConfirmation => "/app/data/templates/order-confirmation.tex"
    case Letterhead => "/app/data/templates/RE.pdf"
    case Details => ""
  }

  /** The values are pairwise distinct. A Python `Enum` turns a member with a
      repeated value into an alias of the earlier one, so distinct values are
      what keeps the five members apart. */
  lemma TemplatePathInjective(t: Template, u: Template)
    requires TemplatePath(t) == TemplatePath(u)
    ensures t == u
  {
  }

  /** The three kinds a handler can ask for. */
  predicate IsDocumentKind(t: Template) {
    t == Invoice || t == Shipping || t == OrderConfirmation
  }

  /** `template_to_label[t]`: only the three document kinds have a label;
      looking up `Letterhead` or `Details` raises `KeyError`. */
  function Label(t: Template): (r: Option<string>)
    ensures r.Some? <==> IsDocumentKind(t)
    ensures r.Some? ==> |r.value| > 0 && '-' !in r.value
  {
    match t
    case Invoice => Some("invoice")
    case Shipping => Some("shipping")
    case OrderConfirmation => Some("order_confirmation")
    case _ => None
  }

  /** Different document kinds get different labels, so their files never
      share a name. */
  lemma LabelInjective(t: Template, u: Template)
    requires Label(t).Some? && Label(t) == Label(u)
    ensures t == u
  {
  }
}

=== FILE: text.dfy ===
/** String primitives the source takes from Python: literal find-and-replace
    (`str.replace`, and `re.sub` with a pattern that has no metacharacters) and
    the decimal rendering of a counter in an f-string. */
module Text {

  /** `pat` occurs in `s` starting at index `i`. */
  predicate OccursAt(s: string, pat: string, i: nat) {
    i + |pat| <= |s| && s[i..i + |pat|] == pat
  }

  /** No occurrence of `pat` in `s` starts before index `k`. */
  predicate NoneBefore(s: string, pat: string, k: nat) {
    forall i: nat :: i < k ==> !OccursAt(s, pat, i)
  }

  /** Leftmost, non-overlapping replacement of every occurrence of `pat` by
      `rep`, scanning left to right: what Python's `s.replace(pat, rep)` and
      `re.sub(pat, rep, s)` do for a non-empty literal pattern. */
  function ReplaceAll(s: string, pat: string, rep: string): (r: string)
    requires |pat| > 0
    // A replacement no longer than the pattern never lengthens the text, one
    // no shorter never shortens it; so one of equal length keeps the length.
    ensures |rep| <= |pat| ==> |r| <= |s|
    ensures |rep| >= |pat| ==> |r| >= |s|
    decreases |s|
  {
    if pat <= s then rep + ReplaceAll(s[|pat|..], pat, rep)
    else if |s| == 0 then s
    else [s[0]] + ReplaceAll(s[1..], pat, rep)
  }

  /** A text without any occurrence of the pattern is left as it is. */
  lemma {:induction false} ReplaceAllAbsent(s: string, pat: string, rep: string)
    requires |pat| > 0
    requires NoneBefore(s, pat, |s| + 1)
    ensures ReplaceAll(s, pat, rep) == s
    decreases |s|
  {
    if |s| > 0 {
      assert !OccursAt(s, pat, 0);
      assert s == [s[0]] + s[1..];
      ReplaceAllSkip(s[0], s[1..], pat, rep);
      assert NoneBefore(s[1..], pat, |s[1..]| + 1) by {
        forall i: nat | i < |s[1..]| + 1
          ensures !OccursAt(s[1..], pat, i)
        {
          OccursShift(s[0], s[1..], pat, i);
          assert !OccursAt(s, pat, i + 1);
        }
      }
      ReplaceAllAbsent(s[1..], pat, rep);
    } else {
      assert !(pat <= s);
    }
  }

  /** The scan starts replacing at the leftmost occurrence: everything before
      it is copied, the occurrence becomes `rep`, and the scan resumes right
      after it. */
  lemma {:induction false} ReplaceAllLeftmost(a: string, pat: string, rep: string, b: string)
    requires |pat| > 0
    requires NoneBefore(a + pat + b, pat, |a|)
    ensures ReplaceAll(a + pat + b, pat, rep) == a + rep + ReplaceAll(b, pat, rep)
    decreases |a|
  {
    if |a| == 0 {
      assert a + pat + b == pat + b;
      ReplaceAllAtStart(pat, rep, b);
    } else {
      var a' := a[1..];
      var s' := a' + pat + b;
      var tail := ReplaceAll(b, pat, rep);
      assert a + pat + b == [a[0]] + s';
      assert !OccursAt([a[0]] + s', pat, 0);
      assert NoneBefore(s', pat, |a'|) by {
        forall i: nat | i < |a'|
          ensures !OccursAt(s', pat, i)
        {
          OccursShift(a[0], s', pat, i);
        }
      }
      calc {
        ReplaceAll([a[0]] + s', pat, rep);
        { ReplaceAllSkip(a[0], s', pat, rep); }
        [a[0]] + ReplaceAll(s', pat, rep);
        { ReplaceAllLeftmost(a', pat, rep, b); }
        [a[0]] + (a' + rep + tail);
        { assert [a[0]] + a' == a; }
        a + rep + tail;
      }
    }
  }

  lemma ReplaceAllAtStart(pat: string, rep: string, b: string)
    requires |pat| > 0
    ensures ReplaceAll(pat + b, pat, rep) == rep + ReplaceAll(b, pat, rep)
  {
    var s := pat + b;
    assert s[..|pat|] == pat;
    assert s[|pat|..] == b;
  }

  /** A character where no occurrence starts is copied unchanged. */
  lemma ReplaceAllSkip(c: char, s: string, pat: string, rep: string)
    requires |pat| > 0
    requires !OccursAt([c] + s, pat, 0)
    ensures ReplaceAll([c] + s, pat, rep) == [c] + ReplaceAll(s, pat, rep)
  {
    assert ([c] + s)[1..] == s;
  }

  /** A text without the first character of the pattern has no occurrence
      of it. */
  lemma NoLeadNoOccurrence(s: string, pat: string)
    requires |pat| > 0 && pat[0] !in s
    ensures NoneBefore(s, pat, |s| + 1)
  {
    forall i: nat | i < |s| + 1
      ensures !OccursAt(s, pat, i)
    {
      if i + |pat| <= |s| {
        assert s[i..i + |pat|][0] == s[i];
      }
    }
  }

  lemma OccursShift(c: char, s: string, pat: string, i: nat)
    ensures OccursAt([c] + s, pat, i + 1) <==> OccursAt(s, pat, i)
  {
    if i + |pat| <= |s| {
      assert ([c] + s)[i + 1..i + 1 + |pat|] == s[i..i + |pat|];
    }
  }

  lemma OccursAfter(x: string, y: string, pat: string, j: nat)
    ensures OccursAt(x + y, pat, |x| + j) <==> OccursAt(y, pat, j)
  {
    if j + |pat| <= |y| {
      assert (x + y)[|x| + j..|x| + j + |pat|] == y[j..j + |pat|];
    }
  }

  /** Up to the first character the replacement text starts with, the
      result is a copy of the input. */
  lemma {:induction false} ReplaceAllCopiesPrefix(s: string, pat: string, rep: string, n: nat)
    requires |pat| > 0 && |rep| > 0
    requires n <= |ReplaceAll(s, pat, rep)|
    requires forall k :: 0 <= k < n ==> ReplaceAll(s, pat, rep)[k] != rep[0]
    ensures n <= |s| && ReplaceAll(s, pat, rep)[..n] == s[..n]
    decreases |s|
  {
    var r := ReplaceAll(s, pat, rep);
    if pat <= s {
      assert r[0] == rep[0];
    } else if |s| > 0 && n > 0 {
      var r' := ReplaceAll(s[1..], pat, rep);
      assert r == [s[0]] + r';
      assert forall k :: 0 <= k < n - 1 ==> r'[k] == r[k + 1];
      ReplaceAllCopiesPrefix(s[1..], pat, rep, n - 1);
      assert r[..n] == [s[0]] + r'[..n - 1];
      assert s[..n] == [s[0]] + s[1..][..n - 1];
    }
  }

  /** When the replacement cannot take part in an occurrence of the pattern
      (it has no character the pattern starts with, and the pattern has no
      character the replacement starts with), no occurrence is left. */
  lemma {:induction false} ReplaceAllClears(s: string, pat: string, rep: string)
    requires |pat| > 0 && |rep| > 0
    requires pat[0] !in rep && rep[0] !in pat
    ensures NoneBefore(ReplaceAll(s, pat, rep), pat, |ReplaceAll(s, pat, rep)| + 1)
    decreases |s|
  {
    var r := ReplaceAll(s, pat, rep);
    if pat <= s {
      var r' := ReplaceAll(s[|pat|..], pat, rep);
      ReplaceAllClears(s[|pat|..], pat, rep);
      assert r == rep + r';
      forall i: nat | i < |r| + 1
        ensures !OccursAt(r, pat, i)
      {
        if i < |rep| {
          assert r[i] == rep[i];
        } else {
          OccursAfter(rep, r', pat, i - |rep|);
        }
      }
    } else if |s| > 0 {
      var r' := ReplaceAll(s[1..], pat, rep);
      ReplaceAllClears(s[1..], pat, rep);
      assert r == [s[0]] + r';
      forall i: nat | i < |r| + 1
        ensures !OccursAt(r, pat, i)
      {
        if i == 0 {
          if OccursAt(r, pat, 0) {
            assert r[..|pat|] == pat;
            assert forall k :: 0 <= k < |pat| ==> r[k] != rep[0] by {
              forall k | 0 <= k < |pat|
                ensures r[k] != rep[0]
              {
                assert r[k] == pat[k];
              }
            }
            ReplaceAllCopiesPrefix(s, pat, rep, |pat|);
          }
        } else {
          OccursShift(s[0], r', pat, i - 1);
        }
      }
    }
  }

  /** For a one-character pattern the replacement works character by
      character, so it distributes over concatenation. */
  lemma {:induction false} ReplaceCharConcat(a: string, b: string, c: char, rep: string)
    ensures ReplaceAll(a + b, [c], rep) == ReplaceAll(a, [c], rep) + ReplaceAll(b, [c], rep)
    decreases |a|
  {
    if |a| == 0 {
      assert a + b == b;
    } else {
      var s := a + b;
      assert s[1..] == a[1..] + b;
      assert [c] <= s <==> s[0] == c;
      assert [c] <= a <==> a[0] == c;
      ReplaceCharConcat(a[1..], b, c, rep);
    }
  }

  predicate IsDigit(c: char) {
    '0' <= c <= '9'
  }

  function DigitChar(d: nat): (c: char)
    requires d < 10
    ensures IsDigit(c)
  {
    ('0' as int + d) as char
  }

  /** Python's `str(n)` for a natural number: decimal, no leading zeros. */
  function Decimal(n: nat): (s: string)
    ensures |s| >= 1
    ensures forall i :: 0 <= i < |s| ==> IsDigit(s[i])
    ensures s[0] == '0' ==> n == 0
    decreases n
  {
    if n < 10 then [DigitChar(n)] else Decimal(n / 10) + [DigitChar(n % 10)]
  }

  /** Reads a string of decimal digits back as a number. */
  function ParseDecimal(s: string): nat
    requires forall i :: 0 <= i < |s| ==> IsDigit(s[i])
    decreases |s|
  {
    if |s| == 0 then 0
    else
      var last := s[|s| - 1];
      assert IsDigit(last);
      ParseDecimal(s[..|s| - 1]) * 10 + (last as int - '0' as int)
  }

  lemma {:induction false} DecimalRoundTrip(n: nat)
    ensures ParseDecimal(Decimal(n)) == n
    decreases n
  {
    if n >= 10 {
      var s := Decimal(n);
      assert s[..|s| - 1] == Decimal(n / 10);
      DecimalRoundTrip(n / 10);
    }
  }

  /** Different counters are rendered as different strings. */
  lemma DecimalInjective(m: nat, n: nat)
    requires Decimal(m) == Decimal(n)
    ensures m == n
  {
    DecimalRoundTrip(m);
    DecimalRoundTrip(n);
  }
}

=== FILE: wrappers.dfy ===
/** Wrappers shared by the whole model: `Option` stands for
    Python's `None`-or-value, `Result` for a value or the exception that the
    source would have raised. */
module Wrappers {

  datatype Option<+T> = None | Some(value: T)

  datatype Result<+R, +E> = Success(value: R) | Failure(error: E) {
    /** Forgets the reason of a failure, as a Python function does when it
        catches every exception and returns `None`. */
    function ToOption(): Option<R>
    {
      match this
      case Success(v) => Some(v)
      case Failure(_) => None
    }
  }
}
